=== FILE: README.md ===
# Sales agent reconciliation core, in Dafny

`app.py` is a Streamlit page that reconciles two spreadsheets.

- **Knowledge base.** The first sheet is read as side-by-side column pairs: a salesperson column immediately followed by a client column. These pairs are merged into one map from client key to salesperson.
- **Sales sheet.** In the second sheet the script finds the approval-date, client and total-amount columns by their headers. It then labels every sales row with the salesperson of its client. It looks for an exact match of the normalised client name first, then falls back to the closest key by `difflib` similarity. Finally it adds the labels as a "Vendedor" column and moves date, client, amount and "Vendedor" to the front.

This project models that data path as pure Dafny functions over immutable tables:

| module | models |
|---|---|
| `Text` | `strip`, `lower`, `upper`, substring `in` |
| `Unicode` | NFD decomposition and the "Mn" category, for the Latin-1 letters |
| `Normalization` | `normalize_string` |
| `Cells` | cells, `str()` of a cell, tables |
| `Dicts` | insertion-ordered Python dicts, item assignment, `update` |
| `Reference` | the knowledge-base map built from column pairs, including the mask and `dict(zip(…))` of each pair |
| `Roles` | resolution of the sales sheet's columns and the missing-column list |
| `Matching` | `get_close_matches(word, keys, n=1, cutoff=0.7)`, with the similarity ratio as a parameter |
| `Attribution` | the label of one sales row |
| `Report` | the loop over the rows, the added column, the reordering, and the page's three outcomes (no base, missing columns, consolidated report) |

Some behaviours of the code are easy to misread; the model follows the code exactly:

- **Last column wins.** A role takes the last sales column whose header matches it, because each match in the loop overwrites the previous one (`app.py:105-115`).
- **Keys are not accent-stripped.** Knowledge-base keys are only stripped and upper-cased (`app.py:50`), while the name looked up is also accent-stripped (`app.py:141`). So the keys are upper case, as the comment at `app.py:154` says, but they keep their accents. A key that keeps an accent can therefore never be found by the exact lookup, only by the fuzzy stage; `Attribution.AccentedKeyMissesExactLookup` states this.
- **Only a missing cell gets "N/A".** `read_excel` reads an empty cell as NaN, which is a missing cell and is labelled "N/A". A client cell holding only whitespace is not missing: it is normalised to the empty string and goes through both lookup stages.
- **A key with an empty salesperson** falls through to the fuzzy stage, because `if not vendedor_match` treats `""` as not found.
- **Gating is on the map.** The sales step tests whether the map is empty (`app.py:90`). So a base that has column pairs but only blank or "nan" client cells also blocks the sales step.
- **A missing salesperson cell** becomes the label "nan", because `astype(str)` renders it that way.

## Model

| member | source | states |
|---|---|---|
| `Text.Trim` | app.py:35 | `strip()` leaves no whitespace at either end |
| `Text.TrimRemovesOuterSpace` | app.py:35 | the stripped string is the input minus a run of whitespace at each end, and adds no character |
| `Text.TrimOfTrimmed` | app.py:106 | stripping a string with no surrounding whitespace changes nothing |
| `Text.Upper` | app.py:82 | `upper()` output is upper case, an upper-case string is left unchanged, and only the empty string maps to the empty string |
| `Text.Lower` | app.py:36 | `lower()` keeps the length, leaves no capital letter, and leaves a lower-case string unchanged, so it is idempotent |
| `Text.LowerAppend` | app.py:36 | `lower()` works character by character, so it distributes over concatenation |
| `Text.Contains` | app.py:39 | `w in s` holds only when `w` is no longer than `s` and every character of `w` occurs in `s` |
| `Text.ContainsExtend` | app.py:39 | a block found in a header is still found once text is added around it, as in "clientes" or "nome do cliente" |
| `Text.ContainsSelf` | app.py:112 | a string occurs in itself and the empty string occurs in every string |
| `Text.UpperKeepsTrimmed` | app.py:50 | `strip().upper()` is still free of surrounding whitespace |
| `Text.UpperAppend` | app.py:82 | `upper()` works character by character, so it distributes over concatenation |
| `Unicode.StripAccents` | app.py:82 | removing the non-spacing marks after NFD leaves only characters that neither decompose nor are marks; a string already made of such characters is returned unchanged |
| `Unicode.StripAccentsIsNfdThenDrop` | app.py:82 | the one-pass accent stripping equals NFD followed by filtering out category "Mn" |
| `Unicode.StripAccentsAppend` | app.py:82 | accent stripping distributes over concatenation |
| `Unicode.Nfd` | app.py:82 | the NFD string holds no character that decomposes further, is at least as long as the input, and equals the input when nothing in it decomposes |
| `Unicode.DropMarks` | app.py:82 | the generator over the NFD string keeps no "Mn" character, keeps every other character it is given, adds none, and returns a mark-free string unchanged |
| `Normalization.Normalize` | app.py:78-82 | the comparison key has no surrounding whitespace, is upper case, has no accents left and has no combining marks; a name already in that form is its own key |
| `Normalization.NormalFormFixed` | app.py:82 | stripping accents, upper-casing and stripping leave a name already in normal form unchanged |
| `Normalization.NormalizeIdempotent` | app.py:78-82 | normalising a key again gives it back unchanged |
| `Normalization.UpperStripCommute` | app.py:82 | upper-casing before or after accent stripping yields the same upper-case text |
| `Normalization.NormalizeIgnoresCase` | app.py:78-82 | a name and its upper-cased form have the same key |
| `Normalization.NormalizeIgnoresAccents` | app.py:78-82 | a name and its accent-stripped form have the same key |
| `Cells.Str` | app.py:50-51 | `astype(str)` gives text back as it is, prints a number as '-' exactly when it is negative followed by decimal digits that read back as its absolute value, and yields "nan" exactly for a missing cell or the text "nan" |
| `Cells.DigitsRoundTrip` | app.py:81 | `str()` of a non-negative integer cell writes digits that read back as that integer |
| `Cells.DecimalString` | app.py:81 | `str()` of an integer cell starts with '-' exactly when it is negative, followed by its digits |
| `Dicts.Put` | app.py:57 | `d[k] = v` binds `k` to `v`, keeps every other entry, and keeps every key listed |
| `Dicts.PutKeysEntries` | app.py:57 | after assigning a list of keys, the keys assigned have their new values and every other key keeps its old value |
| `Dicts.Update` | app.py:58 | `d.update(e)` has exactly the entries of `d` overridden by those of `e` |
| `Dicts.UpdateValid` | app.py:58 | `update` keeps each key listed exactly once |
| `Dicts.UpdateAll` | app.py:56-58 | merging the pair dicts one `update` at a time lists every key it holds; `Dicts.UpdateAllKeys`, `Dicts.UpdateAllValues` and `Dicts.UpdateAllLastWins` give its entries |
| `Dicts.UpdateAllKeys` | app.py:58 | after merging a sequence of dicts, a key is present exactly when some dict merged has it |
| `Dicts.UpdateAllValues` | app.py:58 | every merged value comes from one of the dicts merged |
| `Dicts.UpdateAllLastWins` | app.py:58 | a key takes its value from the last dict merged that has it |
| `Reference.ClientKey` | app.py:50 | a client key is the cell's `str()` text minus a run of whitespace at each end, upper-cased, so it has no surrounding whitespace and is upper case |
| `Reference.OwnerLabel` | app.py:51 | a salesperson label is the cell's own text minus a run of whitespace at each end, so its case is kept |
| `Reference.IsPairAt` | app.py:39-45 | column `i` pairs when it is not the first column, its stripped lower-case header contains "cliente", and its left neighbour's contains "vended" |
| `Reference.AlternatingHeadersPair` | app.py:28-45 | with headers "Vendedor, Cliente, Vendedor, Cliente" the client columns 1 and 3 pair and the salesperson columns 0 and 2 do not |
| `Reference.IsKept` | app.py:54 | the mask keeps a key that is neither "NAN" nor empty |
| `Reference.MaskDropsBlankAndMissing` | app.py:50-54 | the mask drops every missing or whitespace-only client cell and keeps every numeric one |
| `Reference.MaskedDict` | app.py:57 | `dict(zip(keys[mask], values[mask]))` lists each of its keys and holds only keys the mask keeps |
| `Reference.MaskedDictKeys` | app.py:54-57 | the keys of `dict(zip(keys[mask], values[mask]))` are exactly the keys that are neither "NAN" nor empty |
| `Reference.MaskedDictLastItem` | app.py:57 | in `dict(zip(…))` a repeated key keeps the value of its last row |
| `Reference.MaskedDictShape` | app.py:50-57 | a pair's dict has only stripped, upper-case, non-empty, non-"NAN" keys and stripped values, each listed once |
| `Reference.PairColumns` | app.py:34-45 | the pair columns are exactly the client columns whose left neighbour is a salesperson column, scanned left to right |
| `Reference.PairColumnsCount` | app.py:30-60 | `pairs_found` is the number of such client columns |
| `Reference.PairDictKeys` | app.py:50-57 | a pair's dict has a key exactly when some row of its client column gives that key and the key is kept |
| `Reference.BuildSellerMap` | app.py:30-60 | the merged map keeps every key listed, counts the pairs, and is empty when no pair is found |
| `Reference.SellerMapShape` | app.py:30-60 | the finished map has well-shaped keys and values, each key listed once |
| `Reference.SellerMapKeys` | app.py:33-60 | a key is in the map exactly when it is kept and some paired client cell gives it |
| `Reference.SellerMapLastWins` | app.py:50-58 | the salesperson stored for a client is the one beside its last occurrence, pairs left to right and rows top to bottom |
| `Reference.SellerMapEmpty` | app.py:62-90 | the map is empty exactly when no paired client cell gives a kept key |
| `Roles.RoleOf` | app.py:110-115 | the `if/elif` chain: a header passing the date test is a date column; it is a client column exactly when it fails the date test and passes the client test; an amount column exactly when it fails both and passes the amount test; and has no role exactly when it fails all three |
| `Roles.ScanRoles` | app.py:105-115 | the column loop gives each role the last column tagged with it, and leaves a role unset exactly when no column is tagged with it |
| `Roles.ResolveRoles` | app.py:105-115 | on the sales headers, a role resolves to the last column whose header takes it, and to none exactly when no header takes it |
| `Roles.ColumnOf` | app.py:105-115 | on a fully resolved sheet, the column of a role is the last one whose header takes it |
| `Roles.ColumnsDistinct` | app.py:110-115 | the `if/elif` chain gives date, client and amount three different columns |
| `Roles.RolesDistinct` | app.py:110-115 | no column serves two roles |
| `Roles.ColumnIsNotSeller` | app.py:165-168 | no resolved column is the "Vendedor" column the report adds |
| `Roles.MissingColumns` | app.py:117-122 | each expected name is listed exactly when its role is unresolved, in the order date, clients, amount, and the list is empty exactly when all three are resolved |
| `Roles.ExpectedNamesResolve` | app.py:103-115 | the names "Data Aprovação", "Clientes", "Cliente" and "Valor Total" resolve to their own roles, and "Vendedor" to none |
| `Roles.SellerHasNoRole` | app.py:110-115 | the header "Vendedor" takes no role |
| `Matching.StrLess` | app.py:151 | Python's `a < b` on strings: the first differing code point decides, and a proper prefix comes first |
| `Matching.StrLessIrreflexive` | app.py:151 | no string is less than itself |
| `Matching.StrLessTotal` | app.py:151 | Python string order is total on distinct strings |
| `Matching.StrLessTransitive` | app.py:151 | Python string order is transitive |
| `Matching.OutranksTotal` | app.py:151 | of two different candidates, one ranks above the other by (score, candidate) |
| `Matching.OutranksTransitive` | app.py:151 | the (score, candidate) ranking is transitive |
| `Matching.BestAmong` | app.py:151 | scanning the candidates gives nothing exactly when none reaches the cutoff, and otherwise the close candidate no other close candidate outranks |
| `Matching.CloseMatch` | app.py:151 | `get_close_matches(…, n=1, cutoff=0.7)` is empty exactly when no candidate scores 0.7 or more, and otherwise holds the best-ranked such candidate |
| `Matching.BestMatchUnique` | app.py:151 | there is at most one best match |
| `Matching.CloseMatchOrderIndependent` | app.py:151 | the match depends on the set of candidates, not on their order or repetition |
| `Attribution.Lookup` | app.py:145-146 | the exact lookup succeeds exactly on a key of the map and returns its salesperson |
| `Attribution.Found` | app.py:149 | `not vendedor_match` treats both `None` and `""` as not found |
| `Attribution.UpperKeys` | app.py:132 | `clientes_keys_upper` has one upper-cased key per key of the map, in key order |
| `Attribution.UpperKeysAreKeys` | app.py:132 | upper-casing the map's keys changes none of them |
| `Attribution.FuzzyStage` | app.py:149-156 | the fuzzy stage yields a salesperson only when some candidate is close, and that salesperson is a value of the map |
| `Attribution.FuzzyMatchIsKey` | app.py:151-156 | the `match_upper in vendedor_map` test always passes |
| `Attribution.Attribute` | app.py:134-161 | a missing cell is labelled "N/A"; any other row gets a salesperson of the map or "Não Encontrado"; no label is empty |
| `Attribution.AttributeExact` | app.py:141-146 | a client whose key is in the map with a non-empty salesperson gets that salesperson, whatever the similarity |
| `Attribution.AttributeFuzzy` | app.py:149-161 | otherwise the row gets "Não Encontrado" when no key reaches the cutoff, and the salesperson of the best close key when one does (or "Não Encontrado" if that salesperson is empty) |
| `Attribution.AttributeIgnoresKeyOrder` | app.py:132-156 | two maps with the same entries label every row alike, whatever their key order |
| `Attribution.AttributeIgnoresCase` | app.py:141 | upper-casing a client name changes no label |
| `Attribution.AttributeIgnoresAccents` | app.py:141 | stripping the accents of a client name changes no label |
| `Attribution.AccentedKeyMissesExactLookup` | app.py:141-145 | a key that keeps an accent never equals a looked-up name |
| `Report.AttributeRows` | app.py:134-161 | the row loop produces one label per row, in row order, each label computed from that row's own client cell |
| `Report.LabelOfRow` | app.py:135-161 | row `k`'s label comes from row `k`'s cell in the resolved client column |
| `Report.WithSeller` | app.py:165 | `df['Vendedor'] = labels` overwrites an existing "Vendedor" column in place or appends one at the end, puts row `k`'s label in it, and leaves every other cell alone |
| `Report.WithSellerHeaders` | app.py:165 | the new headers are the old ones plus "Vendedor" when it was absent, with no name repeated |
| `Report.Others` | app.py:169 | `other_cols` holds exactly the headers not in the priority list, and has no repeated name |
| `Report.OthersAppend` | app.py:169 | the `other_cols` filter distributes over concatenation |
| `Report.ReorderedHeaders` | app.py:168-170 | the new header order starts with the priority list, and the rest are exactly the other headers, in their original relative order |
| `Report.OthersIsSubsequence` | app.py:169 | `other_cols` keeps the headers it keeps in their original relative order |
| `Report.OthersOfReport` | app.py:165-169 | the added "Vendedor" column is never among `other_cols`, so they are the other columns of the sales sheet |
| `Report.Reorder` | app.py:168-170 | `df[cols_priority + other_cols]` keeps every row, lays out the headers in the new order, and moves each cell with its header |
| `Report.ReorderIsPermutation` | app.py:168-170 | the reordered headers are a permutation of the old ones, with no name repeated |
| `Report.PriorityNames` | app.py:168 | the priority list is four names: a date header, a client header and an amount header of the sheet, each taking that role, followed by "Vendedor" |
| `Report.PriorityNamesDistinct` | app.py:168 | the four priority names are distinct |
| `Report.LayoutOfReport` | app.py:165-170 | adding the label column and reordering puts the priority names first and the other sales headers after them in their original order, adds "Vendedor" once, and places every cell under its header |
| `Report.ConsolidateLayout` | app.py:134-170 | the consolidated report of a fully resolved sheet has the layout above, with the labels of the rows under "Vendedor" |
| `Report.Consolidate` | app.py:129-170 | labelling, adding the column and reordering yield the expected layout |
| `Report.Process` | app.py:89-170 | the sales step refuses exactly when the map is empty; otherwise it reports exactly the missing columns when some role is unresolved, and otherwise lays out the consolidated report |
| `Report.Run` | app.py:23-170 | end to end, the sales step refuses exactly when no paired client cell gives a kept key; otherwise it reports the non-empty list of missing columns exactly when some role is unresolved, and else builds the report, laid out as above and labelled from the map the base yields |

## Left out

- **Page and I/O.** The Streamlit page itself is left out: uploads, `read_excel`, the success, warning, error and debug messages, the preview and the download button. The model receives tables and returns one of three outcomes.
- **Exception handlers.** The `try/except` handlers are left out. The modelled operations on well-formed tables do not fail.
- **Similarity ratio.** The `SequenceMatcher` ratio is a parameter: any function into [0, 1]. The model does not reimplement difflib's matching-block algorithm or its autojunk heuristic. The candidates still must reach 0.7 and are ranked by (score, candidate), as `heapq.nlargest` does.
- **Unicode coverage.** `str.upper`, `str.lower` and NFD are modelled for ASCII and Latin-1, plus U+0178 and the Greek capital mu that U+00FF and U+00B5 upper-case to; `lower()` maps those two back. Every other character is left unchanged: letters outside Latin-1 (for example Ō, ş, ễ) are neither upper-cased nor decomposed, and non-spacing marks outside U+0300–U+036F are not dropped. Canonical reordering of combining marks is not modelled because the marks are dropped afterwards.
- **Cell kinds.** Cells are missing, text or integer. Floats, dates and booleans, and the way pandas renders them through `astype(str)`, are not modelled. In particular an integer column with an empty cell is read as floats, so `astype(str)` gives "5.0" where `Num(5)` gives "5", and such a client key can differ between the two sheets.
- **Header kinds.** Headers are strings. A non-string sales header makes `col.strip()` raise in the source, which falls under the exception handler.
- Report.Reorder: requires the sales headers to be distinct. `read_excel` renames a repeated header ("X", "X.1"), so every sheet the script reads already has distinct headers; a frame with duplicate column names, where selecting a name returns all of its columns, is not modelled.
- Report.Process: requires distinct sales headers for the same reason as `Report.Reorder`.
- Report.Run: requires distinct sales headers for the same reason as `Report.Reorder`.
- **Map reset.** The `vendedor_map = {}` reset after a base with no pairs is not a separate step. A base with no pairs already yields the empty map, as `Reference.BuildSellerMap` states.
- **Processing log.** The log list the script prepares but never fills is not modelled.

=== FILE: attribution.dfy ===
/** Step 2 of the script, second half: the salesperson label of one sales
    row, from an exact lookup of the normalised client name and, failing
    that, the closest client key. */
module Attribution {
  import opened Options
  import opened Text
  import opened Unicode
  import opened Normalization
  import opened Cells
  import opened Dicts
  import opened Reference
  import opened Matching

  /** Label of a row whose client cell is empty. */
  const NA: string := "N/A"

  /** Label of a row no salesperson could be found for. */
  const NOT_FOUND: string := "Não Encontrado"

  /** Python truthiness of `vendedor_match`: `None` and `""` are both false. */
  predicate Found(o: Option<string>) {
    o.Some? && o.value != ""
  }

  /** `d[k]` if `k in d`. */
  function Lookup(d: Dict, k: string): (o: Option<string>)
    ensures o.Some? <==> k in d.entries
    ensures o.Some? ==> o.value == d.entries[k]
  {
    if k in d.entries then Some(d.entries[k]) else None
  }

  /** `clientes_keys_upper`: the keys of the map, upper-cased, in key order. */
  function UpperKeys(d: Dict): (keys: seq<string>)
    ensures |keys| == |d.order|
    ensures forall i :: 0 <= i < |keys| ==> keys[i] == Upper(d.order[i])
  {
    seq(|d.order|, i requires 0 <= i < |d.order| => Upper(d.order[i]))
  }

  /** The keys are upper case already, so upper-casing them again changes
      nothing: the candidates are exactly the keys. */
  lemma UpperKeysAreKeys(d: Dict)
    requires IsSellerMap(d)
    ensures UpperKeys(d) == d.order
  {
    var keys := UpperKeys(d);
    forall i | 0 <= i < |keys| ensures keys[i] == d.order[i] {
      assert d.order[i] in d.entries;
      assert IsClientKey(d.order[i]);
    }
  }

  /** The fuzzy stage: the closest upper-cased key, then its salesperson if
      that key is in the map. */
  function FuzzyStage(q: string, d: Dict, sim: Similarity): (o: Option<string>)
    ensures o.Some? ==> CloseMatch(q, UpperKeys(d), sim).Some?
    ensures o.Some? ==> o.value in d.entries.Values
  {
    match CloseMatch(q, UpperKeys(d), sim)
    case None => None
    case Some(m) => Lookup(d, m)
  }

  /** The `match_upper in vendedor_map` test never fails: the closest
      candidate is always a key of the map. */
  lemma FuzzyMatchIsKey(q: string, d: Dict, sim: Similarity)
    requires IsSellerMap(d)
    ensures CloseMatch(q, UpperKeys(d), sim).Some? ==> CloseMatch(q, UpperKeys(d), sim).value in d.entries
  {
    UpperKeysAreKeys(d);
    var m := CloseMatch(q, d.order, sim);
    if m.Some? {
      var i :| 0 <= i < |d.order| && d.order[i] == m.value;
    }
  }

  /** The label one sales row gets from its client cell. */
  function Attribute(cell: Cell, d: Dict, sim: Similarity): (tag: string)
    ensures cell.Missing? ==> tag == NA
    ensures tag != ""
    ensures !cell.Missing? ==> tag == NOT_FOUND || tag in d.entries.Values
  {
    if cell.Missing? then NA
    else
      var q := Normalize(Str(cell));
      var exact := Lookup(d, q);
      var matched := if Found(exact) then exact else FuzzyStage(q, d, sim);
      if Found(matched) then matched.value else NOT_FOUND
  }

  /** A client whose normalised name is a key with a non-empty salesperson
      gets that salesperson, whatever the similarity measure. */
  lemma AttributeExact(cell: Cell, d: Dict, sim: Similarity)
    requires !cell.Missing?
    requires Normalize(Str(cell)) in d.entries && d.entries[Normalize(Str(cell))] != ""
    ensures Attribute(cell, d, sim) == d.entries[Normalize(Str(cell))]
  {
  }

  /** Otherwise the label is that of the best close key: its salesperson
      when that is non-empty, else "Não Encontrado", which is also the label
      when no key reaches the cutoff. */
  lemma AttributeFuzzy(cell: Cell, d: Dict, sim: Similarity)
    requires IsSellerMap(d) && !cell.Missing?
    requires !(Normalize(Str(cell)) in d.entries && d.entries[Normalize(Str(cell))] != "")
    ensures NoneClose(Normalize(Str(cell)), d.order, sim) ==> Attribute(cell, d, sim) == NOT_FOUND
    ensures forall k :: k in d.entries && IsBestMatch(k, Normalize(Str(cell)), d.order, sim) ==>
      Attribute(cell, d, sim) == if d.entries[k] != "" then d.entries[k] else NOT_FOUND
  {
    var q := Normalize(Str(cell));
    UpperKeysAreKeys(d);
    forall k | k in d.entries && IsBestMatch(k, q, d.order, sim)
      ensures Attribute(cell, d, sim) == if d.entries[k] != "" then d.entries[k] else NOT_FOUND
    {
      var m := CloseMatch(q, d.order, sim);
      BestMatchUnique(m.value, k, q, d.order, sim);
    }
  }

  /** Two maps with the same entries give every row the same label, however
      their keys were ordered. */
  lemma AttributeIgnoresKeyOrder(cell: Cell, d1: Dict, d2: Dict, sim: Similarity)
    requires IsSellerMap(d1) && IsSellerMap(d2) && d1.entries == d2.entries
    ensures Attribute(cell, d1, sim) == Attribute(cell, d2, sim)
  {
    if !cell.Missing? {
      var q := Normalize(Str(cell));
      FuzzyStageIgnoresKeyOrder(q, d1, d2, sim);
      assert Lookup(d1, q) == Lookup(d2, q);
    }
  }

  /** The fuzzy stage only sees which keys there are. */
  lemma FuzzyStageIgnoresKeyOrder(q: string, d1: Dict, d2: Dict, sim: Similarity)
    requires IsSellerMap(d1) && IsSellerMap(d2) && d1.entries == d2.entries
    ensures FuzzyStage(q, d1, sim) == FuzzyStage(q, d2, sim)
  {
    UpperKeysAreKeys(d1);
    UpperKeysAreKeys(d2);
    SameEntriesSameKeys(d1, d2);
    CloseMatchOrderIndependent(q, d1.order, d2.order, sim);
  }

  /** Two listings of the same entries list the same keys. */
  lemma SameEntriesSameKeys(d1: Dict, d2: Dict)
    requires d1.Listed() && d2.Listed() && d1.entries == d2.entries
    ensures forall c :: c in d1.order <==> c in d2.order
  {
    forall c ensures c in d1.order <==> c in d2.order {
      if c in d1.order {
        var i :| 0 <= i < |d1.order| && d1.order[i] == c;
        assert c in d2.entries;
      }
      if c in d2.order {
        var i :| 0 <= i < |d2.order| && d2.order[i] == c;
        assert c in d1.entries;
      }
    }
  }

  /** Case does not matter: upper-casing the client text changes no label. */
  lemma AttributeIgnoresCase(s: string, d: Dict, sim: Similarity)
    ensures Attribute(Text(Upper(s)), d, sim) == Attribute(Text(s), d, sim)
  {
    NormalizeIgnoresCase(s);
  }

  /** Accents do not matter: stripping them from the client text changes no
      label. */
  lemma AttributeIgnoresAccents(s: string, d: Dict, sim: Similarity)
    ensures Attribute(Text(StripAccents(s)), d, sim) == Attribute(Text(s), d, sim)
  {
    NormalizeIgnoresAccents(s);
  }

  /** The keys of the map are only stripped and upper-cased, while the name
      looked up also loses its accents: a key that keeps an accent is never
      found by the exact lookup, only by the fuzzy stage. */
  lemma AccentedKeyMissesExactLookup(cell: Cell, k: string)
    requires !AllPlain(k)
    ensures Normalize(Str(cell)) != k
  {
  }
}

=== FILE: cells.dfy ===
/** Spreadsheet cells and tables as `pd.read_excel` hands them over. */
module Cells {

  /** A cell value: empty (pandas `NaN`), text, or a whole number. */
  datatype Cell = Missing | Text(text: string) | Num(value: int)

  /** A table: header names and rows of cells, one cell per header. */
  datatype Table = Table(headers: seq<string>, rows: seq<seq<Cell>>) {
    predicate WellFormed() {
      forall k :: 0 <= k < |rows| ==> |rows[k]| == |headers|
    }
  }

  predicate Distinct<T(==)>(s: seq<T>) {
    forall i, j :: 0 <= i < j < |s| ==> s[i] != s[j]
  }

  predicate IsDigit(c: char) {
    '0' <= c <= '9'
  }

  /** Decimal digits of a natural number, most significant first. */
  function Digits(n: nat): (r: string)
    ensures r != []
    ensures forall i :: 0 <= i < |r| ==> IsDigit(r[i])
    ensures n >= 10 <==> |r| > 1
    decreases n
  {
    if n < 10 then [('0' as int + n) as char]
    else Digits(n / 10) + [('0' as int + n % 10) as char]
  }

  /** Value of a string of decimal digits. */
  function DigitsValue(s: string): nat
    requires forall i :: 0 <= i < |s| ==> IsDigit(s[i])
    decreases |s|
  {
    if s == [] then 0
    else
      assert IsDigit(s[|s| - 1]);
      10 * DigitsValue(s[..|s| - 1]) + (s[|s| - 1] as int - '0' as int)
  }

  /** Reading the digits back gives the number. */
  lemma {:induction false} DigitsRoundTrip(n: nat)
    ensures DigitsValue(Digits(n)) == n
    decreases n
  {
    if n >= 10 {
      DigitsRoundTrip(n / 10);
      var d := Digits(n);
      assert d[..|d| - 1] == Digits(n / 10);
    }
  }

  /** `str(n)` for an integer. */
  function DecimalString(n: int): (r: string)
    ensures r != []
    ensures r[0] == '-' <==> n < 0
    ensures n < 0 ==> r[1..] == Digits(-n)
    ensures n >= 0 ==> r == Digits(n)
  {
    if n < 0 then "-" + Digits(-n) else Digits(n)
  }

  /** `astype(str)` / `str(value)`: text prints as itself and a missing value
      as "nan"; a number prints as an optional '-' and digits, so only a
      missing cell or the text "nan" print as "nan". */
  function Str(c: Cell): (r: string)
    ensures c.Text? ==> r == c.text
    ensures r == "nan" <==> c.Missing? || c == Text("nan")
    ensures c.Num? ==> r != [] && forall i :: 0 < i < |r| ==> IsDigit(r[i])
    ensures c.Num? ==> (r[0] == '-' <==> c.value < 0)
    ensures c.Num? && c.value >= 0 ==> forall i :: 0 <= i < |r| ==> IsDigit(r[i])
    ensures c.Num? && c.value >= 0 ==> DigitsValue(r) == c.value
    ensures c.Num? && c.value < 0 ==> DigitsValue(r[1..]) == -c.value
  {
    match c
    case Missing => "nan"
    case Text(s) => s
    case Num(n) =>
      DigitsRoundTrip(if n < 0 then -n else n);
      DecimalString(n)
  }
}

=== FILE: dicts.dfy ===
/** A Python `dict[str, str]`: a finite map plus the order in which its keys
    were first inserted (the order `keys()` lists them in). */
module Dicts {
  import opened Cells

  datatype Dict = Dict(entries: map<string, string>, order: seq<string>) {
    /** Every key is listed, and only keys are listed. */
    predicate Listed() {
      && (forall k :: k in entries ==> k in order)
      && (forall i :: 0 <= i < |order| ==> order[i] in entries)
    }

    /** Moreover no key is listed twice. */
    predicate Valid() {
      Listed() && Distinct(order)
    }
  }

  const Empty: Dict := Dict(map[], [])

  /** `d[k] = v`: a new key goes to the end of the order, an existing key
      keeps its place and takes the new value. */
  function Put(d: Dict, k: string, v: string): (r: Dict)
    ensures d.Listed() ==> r.Listed()
    ensures k in r.entries && r.entries[k] == v
    ensures forall x :: x != k ==> (x in r.entries <==> x in d.entries)
    ensures forall x :: x != k && x in d.entries ==> r.entries[x] == d.entries[x]
  {
    Dict(d.entries[k := v], if k in d.entries then d.order else d.order + [k])
  }

  /** Inserting keeps every key listed exactly once, and keeps the order of
      the keys already there. */
  lemma PutValid(d: Dict, k: string, v: string)
    requires d.Valid()
    ensures Put(d, k, v).Valid()
    ensures d.order <= Put(d, k, v).order
    ensures k in d.entries ==> Put(d, k, v).order == d.order
  {
  }

  /** `d` after `d[k] = m[k]` for each `k` of `keys` in turn: the loop
      inside `d.update(e)`, which walks `e` in its key order. */
  function PutKeys(d: Dict, keys: seq<string>, m: map<string, string>): (r: Dict)
    requires forall i :: 0 <= i < |keys| ==> keys[i] in m
    ensures d.Listed() ==> r.Listed()
    decreases |keys|
  {
    if keys == [] then d
    else PutKeys(Put(d, keys[0], m[keys[0]]), keys[1..], m)
  }

  lemma {:induction false} PutKeysValid(d: Dict, keys: seq<string>, m: map<string, string>)
    requires d.Valid()
    requires forall i :: 0 <= i < |keys| ==> keys[i] in m
    ensures PutKeys(d, keys, m).Valid()
    decreases |keys|
  {
    if keys != [] {
      PutValid(d, keys[0], m[keys[0]]);
      PutKeysValid(Put(d, keys[0], m[keys[0]]), keys[1..], m);
    }
  }

  /** The keys walked carry their value in `m`; every other key keeps the
      value it had in `d`. */
  lemma {:induction false} PutKeysEntries(d: Dict, keys: seq<string>, m: map<string, string>, x: string)
    requires forall i :: 0 <= i < |keys| ==> keys[i] in m
    ensures x in PutKeys(d, keys, m).entries <==> x in d.entries || x in keys
    ensures x in keys ==> PutKeys(d, keys, m).entries[x] == m[x]
    ensures x !in keys && x in d.entries ==> PutKeys(d, keys, m).entries[x] == d.entries[x]
    decreases |keys|
  {
    if keys != [] {
      var d' := Put(d, keys[0], m[keys[0]]);
      PutKeysEntries(d', keys[1..], m, x);
      assert x in keys <==> x == keys[0] || x in keys[1..];
    }
  }

  /** `d.update(e)`: on a shared key the value of `e` wins. */
  function Update(d: Dict, e: Dict): (r: Dict)
    requires e.Listed()
    ensures d.Listed() ==> r.Listed()
    ensures r.entries == d.entries + e.entries
  {
    var r := PutKeys(d, e.order, e.entries);
    assert r.entries == d.entries + e.entries by {
      forall x
        ensures x in r.entries <==> x in d.entries + e.entries
        ensures x in r.entries ==> r.entries[x] == (d.entries + e.entries)[x]
      {
        PutKeysEntries(d, e.order, e.entries, x);
      }
    }
    r
  }

  lemma UpdateValid(d: Dict, e: Dict)
    requires d.Valid() && e.Valid()
    ensures Update(d, e).Valid()
  {
    PutKeysValid(d, e.order, e.entries);
  }

  /** Every dict of `ds` lists its keys. */
  predicate AllListed(ds: seq<Dict>) {
    forall i :: 0 <= i < |ds| ==> ds[i].Listed()
  }

  /** `d = {}` followed by `d.update(e)` for each `e` of `ds` in turn. */
  function UpdateAll(ds: seq<Dict>): (r: Dict)
    requires AllListed(ds)
    ensures r.Listed()
    decreases |ds|
  {
    if ds == [] then Empty else Update(UpdateAll(ds[..|ds| - 1]), ds[|ds| - 1])
  }

  lemma {:induction false} UpdateAllValid(ds: seq<Dict>)
    requires AllListed(ds)
    requires forall i :: 0 <= i < |ds| ==> ds[i].Valid()
    ensures UpdateAll(ds).Valid()
    decreases |ds|
  {
    if ds != [] {
      UpdateAllValid(ds[..|ds| - 1]);
      UpdateValid(UpdateAll(ds[..|ds| - 1]), ds[|ds| - 1]);
    }
  }

  /** Some dict of `ds` has key `k`. */
  predicate InSome(ds: seq<Dict>, k: string) {
    exists i :: 0 <= i < |ds| && k in ds[i].entries
  }

  /** Each value of the merged dict comes from one of the dicts merged. */
  lemma {:induction false} UpdateAllValues(ds: seq<Dict>, k: string)
    requires AllListed(ds)
    requires k in UpdateAll(ds).entries
    ensures exists i :: 0 <= i < |ds| && k in ds[i].entries && UpdateAll(ds).entries[k] == ds[i].entries[k]
    decreases |ds|
  {
    var front := ds[..|ds| - 1];
    var last := |ds| - 1;
    if k !in ds[last].entries {
      UpdateAllValues(front, k);
      var i :| 0 <= i < |front| && k in front[i].entries && UpdateAll(front).entries[k] == front[i].entries[k];
      assert ds[i] == front[i];
    }
  }

  /** A key of any dict merged is a key of the result. */
  lemma {:induction false} UpdateAllHas(ds: seq<Dict>, i: nat, k: string)
    requires AllListed(ds)
    requires i < |ds| && k in ds[i].entries
    ensures k in UpdateAll(ds).entries
    decreases |ds|
  {
    var front := ds[..|ds| - 1];
    if i < |ds| - 1 {
      assert front[i] == ds[i];
      UpdateAllHas(front, i, k);
    }
  }

  /** The keys of the merged dict are the keys of the dicts merged. */
  lemma UpdateAllKeys(ds: seq<Dict>, k: string)
    requires AllListed(ds)
    ensures k in UpdateAll(ds).entries <==> InSome(ds, k)
  {
    if k in UpdateAll(ds).entries {
      UpdateAllValues(ds, k);
    }
    if InSome(ds, k) {
      var i :| 0 <= i < |ds| && k in ds[i].entries;
      UpdateAllHas(ds, i, k);
    }
  }

  /** Last write wins: a key takes its value from the last dict that has it. */
  lemma {:induction false} UpdateAllLastWins(ds: seq<Dict>, i: nat, k: string)
    requires AllListed(ds)
    requires i < |ds| && k in ds[i].entries
    requires forall j :: i < j < |ds| ==> k !in ds[j].entries
    ensures k in UpdateAll(ds).entries
    ensures UpdateAll(ds).entries[k] == ds[i].entries[k]
    decreases |ds|
  {
    var front := ds[..|ds| - 1];
    if i < |ds| - 1 {
      assert front[i] == ds[i];
      UpdateAllLastWins(front, i, k);
    }
  }
}

=== FILE: matching.dfy ===
/** `difflib.get_close_matches(word, possibilities, n=1, cutoff=0.7)`, with the
    similarity ratio itself left as a parameter. */
module Matching {
  import opened Options

  /** A similarity ratio: `SequenceMatcher.ratio()` lies between 0 and 1. */
  type Score = r: real | 0.0 <= r <= 1.0 witness 0.0

  /** `sim(candidate, word)`: the ratio of a `SequenceMatcher` whose first
      sequence is the candidate and whose second is the word looked up. */
  type Similarity = (string, string) -> Score

  const CUTOFF: real := 0.7

  /** Python's `a < b` on strings: lexicographic by code point, a proper
      prefix coming first. */
  predicate StrLess(a: string, b: string)
    decreases |a|
  {
    if a == [] then b != []
    else if b == [] then false
    else if a[0] != b[0] then a[0] < b[0]
    else StrLess(a[1..], b[1..])
  }

  lemma {:induction false} StrLessIrreflexive(a: string)
    ensures !StrLess(a, a)
    decreases |a|
  {
    if a != [] {
      StrLessIrreflexive(a[1..]);
    }
  }

  lemma {:induction false} StrLessTransitive(a: string, b: string, c: string)
    requires StrLess(a, b) && StrLess(b, c)
    ensures StrLess(a, c)
    decreases |a|
  {
    if a != [] && a[0] == b[0] && b[0] == c[0] {
      StrLessTransitive(a[1..], b[1..], c[1..]);
    }
  }

  lemma {:induction false} StrLessTotal(a: string, b: string)
    requires a != b
    ensures StrLess(a, b) || StrLess(b, a)
    decreases |a|
  {
    if a != [] && b != [] && a[0] == b[0] {
      assert a == [a[0]] + a[1..] && b == [b[0]] + b[1..];
      StrLessTotal(a[1..], b[1..]);
    }
  }

  /** The tuple comparison `(sim(a, q), a) > (sim(b, q), b)` that
      `heapq.nlargest` ranks the scored candidates by. */
  predicate Outranks(a: string, b: string, q: string, sim: Similarity) {
    sim(a, q) > sim(b, q) || (sim(a, q) == sim(b, q) && StrLess(b, a))
  }

  lemma OutranksIrreflexive(a: string, q: string, sim: Similarity)
    ensures !Outranks(a, a, q, sim)
  {
    StrLessIrreflexive(a);
  }

  lemma OutranksTransitive(a: string, b: string, c: string, q: string, sim: Similarity)
    requires Outranks(a, b, q, sim) && Outranks(b, c, q, sim)
    ensures Outranks(a, c, q, sim)
  {
    if sim(a, q) == sim(b, q) == sim(c, q) {
      StrLessTransitive(c, b, a);
    }
  }

  /** Of two different candidates, one outranks the other. */
  lemma OutranksTotal(a: string, b: string, q: string, sim: Similarity)
    requires a != b
    ensures Outranks(a, b, q, sim) || Outranks(b, a, q, sim)
  {
    StrLessTotal(a, b);
  }

  /** The candidate reaches the cutoff. */
  predicate IsClose(c: string, q: string, sim: Similarity) {
    sim(c, q) >= CUTOFF
  }

  /** No candidate reaches the cutoff. */
  predicate NoneClose(q: string, candidates: seq<string>, sim: Similarity) {
    forall c :: c in candidates ==> !IsClose(c, q, sim)
  }

  /** `k` is a candidate that reaches the cutoff and that no other such
      candidate outranks: the one entry of `get_close_matches(q, …, n=1)`. */
  predicate IsBestMatch(k: string, q: string, candidates: seq<string>, sim: Similarity) {
    && k in candidates
    && IsClose(k, q, sim)
    && forall c :: c in candidates && IsClose(c, q, sim) ==> !Outranks(c, k, q, sim)
  }

  /** The best candidate among the first `n`: the candidates that reach the
      cutoff are scored, and the largest (score, candidate) pair is kept. */
  function BestAmong(q: string, candidates: seq<string>, sim: Similarity, n: nat): (m: Option<string>)
    requires n <= |candidates|
    ensures m.None? <==> NoneClose(q, candidates[..n], sim)
    ensures m.Some? ==> IsBestMatch(m.value, q, candidates[..n], sim)
    decreases n
  {
    if n == 0 then None
    else
      var prev := BestAmong(q, candidates, sim, n - 1);
      var c := candidates[n - 1];
      assert candidates[..n] == candidates[..n - 1] + [c];
      OutranksIrreflexive(c, q, sim);
      if !IsClose(c, q, sim) then
        prev
      else if prev.None? then
        Some(c)
      else if Outranks(c, prev.value, q, sim) then
        BeatsAll(c, prev.value, q, candidates[..n - 1], sim);
        Some(c)
      else
        prev
  }

  /** A candidate that outranks the best of a list outranks every candidate
      of it that reaches the cutoff. */
  lemma BeatsAll(c: string, best: string, q: string, candidates: seq<string>, sim: Similarity)
    requires IsBestMatch(best, q, candidates, sim) && Outranks(c, best, q, sim)
    ensures forall d :: d in candidates && IsClose(d, q, sim) ==> !Outranks(d, c, q, sim)
  {
    forall d | d in candidates && IsClose(d, q, sim)
      ensures !Outranks(d, c, q, sim)
    {
      if Outranks(d, c, q, sim) {
        OutranksTransitive(d, c, best, q, sim);
        assert false;
      }
    }
  }

  /** `get_close_matches(q, candidates, n=1, cutoff=0.7)`: the single best
      close candidate, or nothing when none reaches the cutoff. */
  function CloseMatch(q: string, candidates: seq<string>, sim: Similarity): (m: Option<string>)
    ensures m.None? <==> NoneClose(q, candidates, sim)
    ensures m.Some? ==> IsBestMatch(m.value, q, candidates, sim)
  {
    assert candidates[..|candidates|] == candidates;
    BestAmong(q, candidates, sim, |candidates|)
  }

  /** There is at most one best match. */
  lemma BestMatchUnique(k1: string, k2: string, q: string, candidates: seq<string>, sim: Similarity)
    requires IsBestMatch(k1, q, candidates, sim) && IsBestMatch(k2, q, candidates, sim)
    ensures k1 == k2
  {
    if k1 != k2 {
      OutranksTotal(k1, k2, q, sim);
    }
  }

  /** So the answer depends only on which candidates there are, not on their
      order or repetition. */
  lemma CloseMatchOrderIndependent(q: string, c1: seq<string>, c2: seq<string>, sim: Similarity)
    requires forall c :: c in c1 <==> c in c2
    ensures CloseMatch(q, c1, sim) == CloseMatch(q, c2, sim)
  {
    var m1 := CloseMatch(q, c1, sim);
    var m2 := CloseMatch(q, c2, sim);
    if m1.Some? && m2.Some? {
      BestMatchUnique(m1.value, m2.value, q, c1, sim);
    }
  }
}

=== FILE: normalization.dfy ===
/** `normalize_string`: NFD, drop non-spacing marks, upper-case, strip. */
module Normalization {
  import opened Text
  import opened Unicode

  /** `upper()` never produces a character with a decomposition or a mark
      out of one that has neither. */
  lemma UpperCharKeepsPlain(c: char)
    requires IsPlain(c)
    ensures AllPlain(UpperChar(c))
  {
  }

  lemma {:induction false} UpperKeepsPlain(s: string)
    requires AllPlain(s)
    ensures AllPlain(Upper(s))
    decreases |s|
  {
    if s != [] {
      UpperCharKeepsPlain(s[0]);
      UpperKeepsPlain(s[1..]);
      assert Upper(s) == UpperChar(s[0]) + Upper(s[1..]);
    }
  }

  /** A name already in normal form (no accents, upper case, no surrounding
      whitespace) passes through every step unchanged. */
  lemma NormalFormFixed(s: string)
    ensures IsTrimmed(s) && AllUpper(s) && AllPlain(s) ==> Trim(Upper(StripAccents(s))) == s
  {
    if IsTrimmed(s) && AllUpper(s) && AllPlain(s) {
      TrimOfTrimmed(s);
    }
  }

  /** The comparison key of a client name: accents removed, upper case, no
      surrounding whitespace. */
  function Normalize(s: string): (r: string)
    ensures IsTrimmed(r)
    ensures AllUpper(r)
    ensures AllPlain(r)
    ensures forall i :: 0 <= i < |r| ==> !IsNonspacingMark(r[i])
    ensures IsTrimmed(s) && AllUpper(s) && AllPlain(s) ==> r == s
  {
    NormalFormFixed(s);
    var stripped := StripAccents(s);
    var upper := Upper(stripped);
    UpperKeepsPlain(stripped);
    var r := Trim(upper);
    TrimRemovesOuterSpace(upper);
    assert forall i :: 0 <= i < |r| ==> r[i] in upper;
    r
  }

  /** Normalizing a normalized name gives it back unchanged. */
  lemma NormalizeIdempotent(s: string)
    ensures Normalize(Normalize(s)) == Normalize(s)
  {
    var t := Normalize(s);
    assert StripAccents(t) == t;
    assert Upper(t) == t;
    TrimOfTrimmed(t);
  }

  lemma UpperOne(c: char)
    ensures Upper([c]) == UpperChar(c)
  {
    assert [c][1..] == [];
  }

  lemma StripOne(c: char)
    ensures Decomposition(c).Some? ==> StripAccents([c]) == [Decomposition(c).value.0]
    ensures Decomposition(c).None? && IsNonspacingMark(c) ==> StripAccents([c]) == []
    ensures IsPlain(c) ==> StripAccents([c]) == [c]
  {
    assert [c][1..] == [];
  }

  /** A small Latin-1 letter is its capital plus 0x20, and the two strip to
      the same base letter up to case. */
  lemma UpperStripSmallLatin1(c: char)
    requires '\U{E0}' <= c <= '\U{FE}' && c != '\U{F7}'
    ensures Upper(StripAccents(UpperChar(c))) == Upper(StripAccents([c]))
  {
    var u := (c as int - 32) as char;
    assert UpperChar(c) == [u];
    if CapitalDecomposition(u).Some? {
      UpperStripAccented(c, u);
    } else {
      UpperStripUnaccented(c, u);
    }
  }

  lemma UpperStripAccented(c: char, u: char)
    requires '\U{E0}' <= c <= '\U{FE}' && c != '\U{F7}' && u == (c as int - 32) as char
    requires CapitalDecomposition(u).Some?
    ensures Upper(StripAccents([u])) == Upper(StripAccents([c]))
  {
    var base := CapitalDecomposition(u).value.0;
    var small := (base as int + 0x20) as char;
    assert Decomposition(u).value.0 == base;
    assert Decomposition(c).value.0 == small;
    StripOne(u);
    StripOne(c);
    UpperOne(base);
    UpperOne(small);
  }

  lemma UpperStripUnaccented(c: char, u: char)
    requires '\U{E0}' <= c <= '\U{FE}' && c != '\U{F7}' && u == (c as int - 32) as char
    requires CapitalDecomposition(u).None?
    ensures Upper(StripAccents([u])) == Upper(StripAccents([c]))
  {
    assert Decomposition(u) == CapitalDecomposition(u);
    StripOne(u);
    StripOne(c);
    UpperOne(u);
    UpperOne(c);
  }

  lemma UpperStripSmallAscii(c: char)
    requires 'a' <= c <= 'z'
    ensures Upper(StripAccents(UpperChar(c))) == Upper(StripAccents([c]))
  {
    var u := (c as int - 32) as char;
    assert UpperChar(c) == [u];
    assert IsPlain(u) && IsPlain(c);
    StripOne(u);
    StripOne(c);
    assert StripAccents([u]) == [u];
    assert StripAccents([c]) == [c];
    UpperOne(u);
    UpperOne(c);
  }

  lemma UpperStripSharpS()
    ensures Upper(StripAccents(UpperChar('\U{DF}'))) == Upper(StripAccents(['\U{DF}']))
  {
    assert UpperChar('\U{DF}') == ['S'] + ['S'];
    assert IsPlain('S') && IsPlain('\U{DF}');
    StripAccentsAppend(['S'], ['S']);
    StripOne('S');
    assert StripAccents(['S']) == ['S'];
    UpperOne('S');
    assert Upper(['S']) == ['S'];
    UpperAppend(['S'], ['S']);
    StripOne('\U{DF}');
    assert StripAccents(['\U{DF}']) == ['\U{DF}'];
    UpperOne('\U{DF}');
  }

  lemma UpperStripSmallYDiaeresis()
    ensures Upper(StripAccents(UpperChar('\U{FF}'))) == Upper(StripAccents(['\U{FF}']))
  {
    assert UpperChar('\U{FF}') == ['\U{178}'];
    StripOne('\U{178}');
    StripOne('\U{FF}');
    UpperOne('Y');
    UpperOne('y');
  }

  lemma UpperStripMicro()
    ensures Upper(StripAccents(UpperChar('\U{B5}'))) == Upper(StripAccents(['\U{B5}']))
  {
    assert UpperChar('\U{B5}') == ['\U{39C}'];
    assert IsPlain('\U{39C}') && IsPlain('\U{B5}');
    StripOne('\U{39C}');
    StripOne('\U{B5}');
    UpperOne('\U{39C}');
    UpperOne('\U{B5}');
  }

  /** Upper-casing one character before or after stripping accents gives the
      same upper-case letters. */
  lemma UpperStripCommuteChar(c: char)
    ensures Upper(StripAccents(UpperChar(c))) == Upper(StripAccents([c]))
  {
    if '\U{E0}' <= c <= '\U{FE}' && c != '\U{F7}' {
      UpperStripSmallLatin1(c);
    } else if 'a' <= c <= 'z' {
      UpperStripSmallAscii(c);
    } else if c == '\U{DF}' {
      UpperStripSharpS();
    } else if c == '\U{FF}' {
      UpperStripSmallYDiaeresis();
    } else if c == '\U{B5}' {
      UpperStripMicro();
    } else {
      assert UpperChar(c) == [c];
    }
  }

  lemma {:induction false} UpperStripCommute(s: string)
    ensures Upper(StripAccents(Upper(s))) == Upper(StripAccents(s))
    decreases |s|
  {
    if s != [] {
      var c := s[0];
      assert s == [c] + s[1..];
      UpperStripCommute(s[1..]);
      UpperAppend([c], s[1..]);
      assert Upper([c]) == UpperChar(c) by {
        assert [c][1..] == [];
      }
      StripAccentsAppend(UpperChar(c), Upper(s[1..]));
      UpperAppend(StripAccents(UpperChar(c)), StripAccents(Upper(s[1..])));
      StripAccentsAppend([c], s[1..]);
      UpperAppend(StripAccents([c]), StripAccents(s[1..]));
      UpperStripCommuteChar(c);
    }
  }

  /** The key ignores letter case: "cafe" and "CAFE" normalize alike. */
  lemma NormalizeIgnoresCase(s: string)
    ensures Normalize(Upper(s)) == Normalize(s)
  {
    UpperStripCommute(s);
  }

  /** The key ignores accents: a name and its accent-stripped form normalize alike. */
  lemma NormalizeIgnoresAccents(s: string)
    ensures Normalize(StripAccents(s)) == Normalize(s)
  {
    assert StripAccents(StripAccents(s)) == StripAccents(s);
  }
}

=== FILE: options.dfy ===
/** The optional value used wherever the script keeps `None` for "not found yet". */
module Options {

  datatype Option<+T> = None | Some(value: T)
}

=== FILE: reference.dfy ===
/** Step 1 of the script: building the client -> salesperson map from a
    base sheet laid out as repeated "Vendedor | Cliente" column pairs. */
module Reference {
  import opened Text
  import opened Cells
  import opened Dicts

  /** The header, stripped and lower-cased, contains `keyword`. */
  predicate HeaderHas(header: string, keyword: string) {
    Contains(Lower(Trim(header)), keyword)
  }

  /** Column `i` is a client column whose left neighbour is a salesperson
      column; column 0 has no left neighbour and is never paired. */
  predicate IsPairAt(headers: seq<string>, i: int) {
    0 < i < |headers| && HeaderHas(headers[i], "cliente") && HeaderHas(headers[i - 1], "vended")
  }

  /** The layout the base sheet is meant to have, "Vendedor | Cliente" twice:
      each client column pairs with the salesperson column on its left, and
      the salesperson columns themselves never pair. */
  lemma AlternatingHeadersPair(headers: seq<string>)
    requires headers == ["Vendedor", "Cliente", "Vendedor", "Cliente"]
    ensures IsPairAt(headers, 1) && IsPairAt(headers, 3)
    ensures !IsPairAt(headers, 0) && !IsPairAt(headers, 2)
  {
    TrimOfTrimmed("Vendedor");
    TrimOfTrimmed("Cliente");
    assert Lower("Vendedor") == "vendedor";
    assert Lower("Cliente") == "cliente";
    ContainsSelf("cliente");
    assert OccursAt("vendedor", "vended", 0);
    ContainsNeedsChar("vendedor", "cliente", 0);
  }

  /** A client cell as a map key: `astype(str).str.strip().str.upper()`. */
  function ClientKey(c: Cell): (k: string)
    ensures IsTrimmed(k) && AllUpper(k)
    ensures exists t :: IsTrimOf(t, Str(c)) && k == Upper(t)
  {
    TrimRemovesOuterSpace(Str(c));
    var t := Trim(Str(c));
    UpperKeepsTrimmed(t);
    Upper(t)
  }

  /** A salesperson cell as a map value: `astype(str).str.strip()`, case kept. */
  function OwnerLabel(c: Cell): (v: string)
    ensures IsTrimmed(v)
    ensures IsTrimOf(v, Str(c))
  {
    TrimRemovesOuterSpace(Str(c));
    Trim(Str(c))
  }

  /** The mask of the pair: empty keys and the text of a missing cell are dropped. */
  predicate IsKept(key: string) {
    key != "NAN" && key != ""
  }

  /** The mask drops every missing or blank client cell, and keeps every
      numeric one. */
  lemma MaskDropsBlankAndMissing(c: Cell)
    ensures c.Missing? ==> !IsKept(ClientKey(c))
    ensures c.Text? && AllSpace(c.text) ==> !IsKept(ClientKey(c))
    ensures c.Num? ==> IsKept(ClientKey(c))
  {
    var t := Str(c);
    match c
    case Missing =>
      TrimOfTrimmed("nan");
      assert Upper("nan") == "NAN";
    case Text(s) =>
    case Num(n) =>
      assert !IsSpace(t[0]) && !IsSpace(t[|t| - 1]);
      TrimOfTrimmed(t);
      assert AllUpper(t) by {
        forall i | 0 <= i < |t| ensures IsUpper(t[i]) {
          assert i > 0 ==> IsDigit(t[i]);
        }
      }
      assert t[0] != 'N';
  }

  /** What every key of the finished map looks like. */
  predicate IsClientKey(key: string) {
    IsKept(key) && IsTrimmed(key) && AllUpper(key)
  }

  /** The shape of a finished client -> salesperson map. */
  predicate IsSellerMap(d: Dict) {
    && d.Valid()
    && (forall k :: k in d.entries ==> IsClientKey(k))
    && (forall k :: k in d.entries ==> IsTrimmed(d.entries[k]))
  }

  /** The (client key, salesperson) pair of every row for the column pair
      whose client column is `p`. */
  function PairItems(t: Table, p: nat): (items: seq<(string, string)>)
    requires t.WellFormed() && 0 < p < |t.headers|
    ensures |items| == |t.rows|
    ensures forall r :: 0 <= r < |items| ==>
      items[r].0 == ClientKey(t.rows[r][p]) && items[r].1 == OwnerLabel(t.rows[r][p - 1])
  {
    seq(|t.rows|, r requires 0 <= r < |t.rows| => (ClientKey(t.rows[r][p]), OwnerLabel(t.rows[r][p - 1])))
  }

  /** Items whose keys look like client keys and whose values are stripped. */
  predicate WellShapedItems(items: seq<(string, string)>) {
    forall i :: 0 <= i < |items| ==> IsTrimmed(items[i].0) && AllUpper(items[i].0) && IsTrimmed(items[i].1)
  }

  /** `dict(zip(keys[mask], values[mask]))` over the first `n` items: a later
      item overwrites an earlier one with the same key. */
  function MaskedDict(items: seq<(string, string)>, n: nat): (d: Dict)
    requires n <= |items|
    ensures d.Listed()
    ensures forall k :: k in d.entries ==> IsKept(k)
    decreases n
  {
    if n == 0 then Empty
    else
      var prev := MaskedDict(items, n - 1);
      var (key, owner) := items[n - 1];
      if IsKept(key) then Put(prev, key, owner) else prev
  }

  /** Well-shaped items give a dict of the finished map's shape. */
  lemma {:induction false} MaskedDictShape(items: seq<(string, string)>, n: nat)
    requires WellShapedItems(items) && n <= |items|
    ensures IsSellerMap(MaskedDict(items, n))
    decreases n
  {
    if n > 0 {
      MaskedDictShape(items, n - 1);
      var prev := MaskedDict(items, n - 1);
      var (key, owner) := items[n - 1];
      if IsKept(key) {
        PutValid(prev, key, owner);
        var d := Put(prev, key, owner);
        assert IsClientKey(key) && IsTrimmed(owner);
        forall k | k in d.entries ensures IsClientKey(k) && IsTrimmed(d.entries[k]) {
          if k != key {
            assert k in prev.entries;
          }
        }
      }
    }
  }

  /** Some of the first `n` items has key `k`. */
  predicate KeyAmong(items: seq<(string, string)>, n: nat, k: string)
    requires n <= |items|
  {
    exists i :: 0 <= i < n && items[i].0 == k
  }

  /** The keys of the masked dict are the kept keys of the items. */
  lemma {:induction false} MaskedDictKeys(items: seq<(string, string)>, n: nat, k: string)
    requires n <= |items|
    ensures k in MaskedDict(items, n).entries <==> IsKept(k) && KeyAmong(items, n, k)
    decreases n
  {
    if n > 0 {
      MaskedDictKeys(items, n - 1, k);
      if KeyAmong(items, n, k) && items[n - 1].0 != k {
        var i :| 0 <= i < n && items[i].0 == k;
        assert KeyAmong(items, n - 1, k);
      }
      if KeyAmong(items, n - 1, k) {
        var i :| 0 <= i < n - 1 && items[i].0 == k;
        assert KeyAmong(items, n, k);
      }
      if items[n - 1].0 == k {
        assert KeyAmong(items, n, k);
      }
    }
  }

  /** The value stored for a key is that of the last item with that key. */
  lemma {:induction false} MaskedDictLastItem(items: seq<(string, string)>, n: nat, i: nat)
    requires i < n <= |items|
    requires IsKept(items[i].0)
    requires forall j :: i < j < n ==> items[j].0 != items[i].0
    ensures items[i].0 in MaskedDict(items, n).entries
    ensures MaskedDict(items, n).entries[items[i].0] == items[i].1
    decreases n
  {
    if i < n - 1 {
      MaskedDictLastItem(items, n - 1, i);
    }
  }

  /** The dict one column pair contributes. */
  function PairDict(t: Table, p: nat): (d: Dict)
    requires t.WellFormed() && 0 < p < |t.headers|
    ensures d.Listed()
  {
    var items := PairItems(t, p);
    MaskedDict(items, |items|)
  }

  lemma PairDictShape(t: Table, p: nat)
    requires t.WellFormed() && 0 < p < |t.headers|
    ensures IsSellerMap(PairDict(t, p))
  {
    var items := PairItems(t, p);
    assert WellShapedItems(items);
    MaskedDictShape(items, |items|);
  }

  /** The positions among the first `n` where `flags` holds, in order. */
  function Positions(flags: seq<bool>, n: nat): (ps: seq<nat>)
    requires n <= |flags|
    ensures forall k :: 0 <= k < |ps| ==> ps[k] < n && flags[ps[k]]
    ensures forall i :: 0 <= i < n && flags[i] ==> i in ps
    ensures forall k, l :: 0 <= k < l < |ps| ==> ps[k] < ps[l]
    decreases n
  {
    if n == 0 then []
    else if flags[n - 1] then Positions(flags, n - 1) + [n - 1]
    else Positions(flags, n - 1)
  }

  /** The positions, as a set. */
  ghost function PositionSet(flags: seq<bool>, n: nat): set<nat>
    requires n <= |flags|
  {
    set i: nat | i < n && flags[i]
  }

  /** Extending the range by one position adds at most that position. */
  lemma PositionSetStep(flags: seq<bool>, n: nat)
    requires 0 < n <= |flags|
    ensures |PositionSet(flags, n)| == |PositionSet(flags, n - 1)| + (if flags[n - 1] then 1 else 0)
  {
    var prev := PositionSet(flags, n - 1);
    var now := PositionSet(flags, n);
    if flags[n - 1] {
      assert now == prev + {n - 1};
    } else {
      assert now == prev;
    }
  }

  lemma {:induction false} PositionsCount(flags: seq<bool>, n: nat)
    requires n <= |flags|
    ensures |Positions(flags, n)| == |PositionSet(flags, n)|
    decreases n
  {
    if n > 0 {
      PositionsCount(flags, n - 1);
      PositionSetStep(flags, n);
    }
  }

  /** Which columns are the client column of a pair. */
  function PairFlags(headers: seq<string>): (flags: seq<bool>)
    ensures |flags| == |headers|
    ensures forall i :: 0 <= i < |headers| ==> flags[i] == IsPairAt(headers, i)
  {
    seq(|headers|, i requires 0 <= i < |headers| => IsPairAt(headers, i))
  }

  /** The paired client columns, left to right. */
  function PairColumns(headers: seq<string>): (ps: seq<nat>)
    ensures forall k :: 0 <= k < |ps| ==> IsPairAt(headers, ps[k])
    ensures forall i :: 0 <= i < |headers| && IsPairAt(headers, i) ==> i in ps
    ensures forall k, l :: 0 <= k < l < |ps| ==> ps[k] < ps[l]
  {
    Positions(PairFlags(headers), |headers|)
  }

  /** The paired client columns, as a set. */
  ghost function PairSet(headers: seq<string>): set<nat> {
    set i: nat | i < |headers| && IsPairAt(headers, i)
  }

  /** So `pairs_found` is the number of paired client columns. */
  lemma PairColumnsCount(headers: seq<string>)
    ensures |PairColumns(headers)| == |PairSet(headers)|
  {
    var flags := PairFlags(headers);
    PositionsCount(flags, |headers|);
    assert PositionSet(flags, |headers|) == PairSet(headers);
  }

  /** The dicts of the pairs, in the order the loop meets them. */
  function PairDicts(t: Table): (ds: seq<Dict>)
    requires t.WellFormed()
    ensures |ds| == |PairColumns(t.headers)|
    ensures AllListed(ds)
  {
    var ps := PairColumns(t.headers);
    seq(|ps|, k requires 0 <= k < |ps| => PairDict(t, ps[k]))
  }

  /** The map and `pairs_found` after the loop over the base sheet. */
  datatype SellerMap = SellerMap(clients: Dict, pairs: nat)

  /** The whole map-building loop over the base sheet: each pair's dict, left
      to right, is merged into the map with `update`. */
  function BuildSellerMap(t: Table): (s: SellerMap)
    requires t.WellFormed()
    ensures s.clients.Listed()
    ensures s.pairs == |PairSet(t.headers)|
    ensures s.pairs == 0 ==> s.clients.entries == map[]
  {
    PairColumnsCount(t.headers);
    var ds := PairDicts(t);
    SellerMap(UpdateAll(ds), |ds|)
  }

  /** Some row of some paired client column has `k` as its client key. */
  predicate ClientInBase(t: Table, k: string)
    requires t.WellFormed()
  {
    exists p, r :: 0 < p < |t.headers| && IsPairAt(t.headers, p) && 0 <= r < |t.rows| && ClientKey(t.rows[r][p]) == k
  }

  /** The keys of one pair's dict are its kept client keys. */
  lemma PairDictKeys(t: Table, p: nat, k: string)
    requires t.WellFormed() && 0 < p < |t.headers|
    ensures k in PairDict(t, p).entries <==>
      IsKept(k) && exists r :: 0 <= r < |t.rows| && ClientKey(t.rows[r][p]) == k
  {
    var items := PairItems(t, p);
    assert PairDict(t, p) == MaskedDict(items, |items|);
    MaskedDictKeys(items, |items|, k);
    assert KeyAmong(items, |items|, k) <==> exists r :: 0 <= r < |t.rows| && ClientKey(t.rows[r][p]) == k by {
      if KeyAmong(items, |items|, k) {
        var r :| 0 <= r < |items| && items[r].0 == k;
        assert ClientKey(t.rows[r][p]) == k;
      }
      if exists r :: 0 <= r < |t.rows| && ClientKey(t.rows[r][p]) == k {
        var r :| 0 <= r < |t.rows| && ClientKey(t.rows[r][p]) == k;
        assert items[r].0 == k;
      }
    }
  }

  /** The finished map has the shape every later step relies on. */
  lemma SellerMapShape(t: Table)
    requires t.WellFormed()
    ensures IsSellerMap(BuildSellerMap(t).clients)
  {
    var ds := PairDicts(t);
    var ps := PairColumns(t.headers);
    forall i | 0 <= i < |ds| ensures IsSellerMap(ds[i]) {
      PairDictShape(t, ps[i]);
    }
    UpdateAllValid(ds);
    var m := UpdateAll(ds);
    forall k | k in m.entries ensures IsClientKey(k) && IsTrimmed(m.entries[k]) {
      UpdateAllValues(ds, k);
      var i :| 0 <= i < |ds| && k in ds[i].entries && m.entries[k] == ds[i].entries[k];
      assert IsSellerMap(ds[i]);
    }
  }

  /** A key is in the map exactly when some paired client cell, stripped and
      upper-cased, gives it and it is neither empty nor "NAN". */
  lemma SellerMapKeys(t: Table, k: string)
    requires t.WellFormed()
    ensures k in BuildSellerMap(t).clients.entries <==> IsKept(k) && ClientInBase(t, k)
  {
    UpdateAllKeys(PairDicts(t), k);
    if InSome(PairDicts(t), k) {
      SellerMapKeyFromBase(t, k);
    }
    if IsKept(k) && ClientInBase(t, k) {
      SellerMapKeyInSome(t, k);
    }
  }

  lemma SellerMapKeyFromBase(t: Table, k: string)
    requires t.WellFormed() && InSome(PairDicts(t), k)
    ensures IsKept(k) && ClientInBase(t, k)
  {
    var ds := PairDicts(t);
    var ps := PairColumns(t.headers);
    var i :| 0 <= i < |ds| && k in ds[i].entries;
    PairDictKeys(t, ps[i], k);
    var r :| 0 <= r < |t.rows| && ClientKey(t.rows[r][ps[i]]) == k;
  }

  lemma SellerMapKeyInSome(t: Table, k: string)
    requires t.WellFormed() && IsKept(k) && ClientInBase(t, k)
    ensures InSome(PairDicts(t), k)
  {
    var ds := PairDicts(t);
    var ps := PairColumns(t.headers);
    var p, r :| 0 < p < |t.headers| && IsPairAt(t.headers, p) && 0 <= r < |t.rows| && ClientKey(t.rows[r][p]) == k;
    PairDictKeys(t, p, k);
    assert p in ps;
    var i :| 0 <= i < |ps| && ps[i] == p;
    assert k in ds[i].entries;
  }

  /** Last write wins: the salesperson stored for a client is the one beside
      the last occurrence of that client, scanning pairs left to right and
      rows top to bottom within a pair. */
  lemma SellerMapLastWins(t: Table, p: nat, r: nat)
    requires t.WellFormed() && IsPairAt(t.headers, p) && r < |t.rows|
    requires IsKept(ClientKey(t.rows[r][p]))
    requires forall q, r' ::
      (IsPairAt(t.headers, q) && 0 <= r' < |t.rows| && (q > p || (q == p && r' > r)))
      ==> ClientKey(t.rows[r'][q]) != ClientKey(t.rows[r][p])
    ensures ClientKey(t.rows[r][p]) in BuildSellerMap(t).clients.entries
    ensures BuildSellerMap(t).clients.entries[ClientKey(t.rows[r][p])] == OwnerLabel(t.rows[r][p - 1])
  {
    var k := ClientKey(t.rows[r][p]);
    var items := PairItems(t, p);
    MaskedDictLastItem(items, |items|, r);
    var ds := PairDicts(t);
    var ps := PairColumns(t.headers);
    assert p in ps;
    var i :| 0 <= i < |ps| && ps[i] == p;
    LaterPairsLackKey(t, ps, i, k);
    UpdateAllLastWins(ds, i, k);
  }

  /** A key that no pair right of pair `i` gives is in none of their dicts. */
  lemma LaterPairsLackKey(t: Table, ps: seq<nat>, i: nat, k: string)
    requires t.WellFormed() && ps == PairColumns(t.headers) && i < |ps|
    requires forall q, r' :: IsPairAt(t.headers, q) && 0 <= r' < |t.rows| && q > ps[i] ==> ClientKey(t.rows[r'][q]) != k
    ensures forall j :: i < j < |ps| ==> k !in PairDicts(t)[j].entries
  {
    forall j | i < j < |ps| ensures k !in PairDicts(t)[j].entries {
      assert ps[j] > ps[i] && IsPairAt(t.headers, ps[j]);
      PairDictKeys(t, ps[j], k);
    }
  }

  /** The map is empty exactly when every paired client cell is blank or
      missing, which happens with no pair at all but also with pairs whose
      client cells hold nothing. */
  lemma SellerMapEmpty(t: Table)
    requires t.WellFormed()
    ensures BuildSellerMap(t).clients.entries == map[] <==>
      forall p, r :: 0 < p < |t.headers| && IsPairAt(t.headers, p) && 0 <= r < |t.rows| ==> !IsKept(ClientKey(t.rows[r][p]))
  {
    var m := BuildSellerMap(t).clients.entries;
    if m != map[] {
      var k :| k in m;
      SellerMapKeys(t, k);
    } else {
      forall p, r | 0 < p < |t.headers| && IsPairAt(t.headers, p) && 0 <= r < |t.rows|
        ensures !IsKept(ClientKey(t.rows[r][p]))
      {
        SellerMapKeys(t, ClientKey(t.rows[r][p]));
      }
    }
  }
}

=== FILE: report.dfy ===
/** Step 2 of the script, end to end: the gate on the seller map, the role
    check, the label of every row, the new "Vendedor" column and the final
    column order. */
module Report {
  import opened Options
  import opened Cells
  import opened Dicts
  import opened Reference
  import opened Roles
  import opened Matching
  import opened Attribution

  /** The label of every row, from its cell in column `client`. */
  function RowLabels(rows: seq<seq<Cell>>, client: nat, d: Dict, sim: Similarity): (tags: seq<string>)
    requires forall k :: 0 <= k < |rows| ==> client < |rows[k]|
    ensures |tags| == |rows|
  {
    seq(|rows|, k requires 0 <= k < |rows| => Attribute(rows[k][client], d, sim))
  }

  /** The loop over the sales rows: one label per row, in row order. */
  method AttributeRows(rows: seq<seq<Cell>>, client: nat, d: Dict, sim: Similarity) returns (tags: seq<string>)
    requires forall k :: 0 <= k < |rows| ==> client < |rows[k]|
    ensures tags == RowLabels(rows, client, d, sim)
  {
    tags := [];
    var k := 0;
    while k < |rows|
      invariant k <= |rows|
      invariant tags == RowLabels(rows, client, d, sim)[..k]
    {
      var tag := Attribute(rows[k][client], d, sim);
      PrefixStep(RowLabels(rows, client, d, sim), k);
      tags := tags + [tag];
      k := k + 1;
    }
  }

  lemma PrefixStep<T>(s: seq<T>, k: nat)
    requires k < |s|
    ensures s[..k + 1] == s[..k] + [s[k]]
  {
  }

  /** `df['Vendedor'] = tags`: an existing "Vendedor" column is overwritten in
      place, otherwise the column is added at the end. */
  function WithSeller(t: Table, tags: seq<string>): (r: Table)
    requires t.WellFormed() && |tags| == |t.rows|
    ensures r.WellFormed() && |r.rows| == |t.rows|
    ensures SELLER in r.headers
    ensures |t.headers| <= |r.headers| && r.headers[..|t.headers|] == t.headers
    ensures r.headers == if SELLER in t.headers then t.headers else t.headers + [SELLER]
    ensures forall k, j :: 0 <= k < |r.rows| && 0 <= j < |r.headers| && r.headers[j] == SELLER ==>
      r.rows[k][j] == Text(tags[k])
    ensures forall k, j :: 0 <= k < |r.rows| && 0 <= j < |t.headers| && t.headers[j] != SELLER ==>
      r.rows[k][j] == t.rows[k][j]
  {
    if SELLER in t.headers then
      Table(t.headers, seq(|t.rows|, k requires 0 <= k < |t.rows| =>
        seq(|t.headers|, j requires 0 <= j < |t.headers| =>
          if t.headers[j] == SELLER then Text(tags[k]) else t.rows[k][j])))
    else
      Table(t.headers + [SELLER], seq(|t.rows|, k requires 0 <= k < |t.rows| => t.rows[k] + [Text(tags[k])]))
  }

  /** The new column adds "Vendedor" to the headers once, or finds it there. */
  lemma WithSellerHeaders(t: Table, tags: seq<string>)
    requires t.WellFormed() && |tags| == |t.rows| && Distinct(t.headers)
    ensures Distinct(WithSeller(t, tags).headers)
    ensures multiset(WithSeller(t, tags).headers) ==
      if SELLER in t.headers then multiset(t.headers) else multiset(t.headers) + multiset{SELLER}
  {
  }

  /** Position of a header in a list of headers. */
  function IndexOf(headers: seq<string>, name: string): (i: nat)
    requires name in headers
    ensures i < |headers| && headers[i] == name
    ensures forall j :: 0 <= j < i ==> headers[j] != name
    decreases |headers|
  {
    if headers[0] == name then 0 else 1 + IndexOf(headers[1..], name)
  }

  /** `[c for c in headers if c not in priority]`. */
  function Others(headers: seq<string>, priority: seq<string>): (o: seq<string>)
    ensures forall x :: x in o <==> x in headers && x !in priority
    ensures Distinct(headers) ==> Distinct(o)
    decreases |headers|
  {
    if headers == [] then []
    else (if headers[0] in priority then [] else [headers[0]]) + Others(headers[1..], priority)
  }

  /** The headers that are in `priority`, in header order. */
  function Kept(headers: seq<string>, priority: seq<string>): (o: seq<string>)
    ensures forall x :: x in o <==> x in headers && x in priority
    ensures Distinct(headers) ==> Distinct(o)
    decreases |headers|
  {
    if headers == [] then []
    else (if headers[0] in priority then [headers[0]] else []) + Kept(headers[1..], priority)
  }

  /** The comprehension keeps the order of the headers: it works piece by
      piece over any split of them. */
  lemma {:induction false} OthersAppend(a: seq<string>, b: seq<string>, priority: seq<string>)
    ensures Others(a + b, priority) == Others(a, priority) + Others(b, priority)
    decreases |a|
  {
    if a == [] {
      assert a + b == b;
    } else {
      assert (a + b)[0] == a[0];
      assert (a + b)[1..] == a[1..] + b;
      OthersAppend(a[1..], b, priority);
      var head := if a[0] in priority then [] else [a[0]];
      calc {
        Others(a + b, priority);
        head + Others(a[1..] + b, priority);
        head + (Others(a[1..], priority) + Others(b, priority));
        (head + Others(a[1..], priority)) + Others(b, priority);
      }
    }
  }

  /** `a` is `b` with some elements left out, the rest in their order. */
  predicate IsSubsequence(a: seq<string>, b: seq<string>)
    decreases |b|
  {
    if a == [] then true
    else if b == [] then false
    else (a[0] == b[0] && IsSubsequence(a[1..], b[1..])) || IsSubsequence(a, b[1..])
  }

  /** So the comprehension keeps the other headers in their original
      relative order. */
  lemma {:induction false} OthersIsSubsequence(headers: seq<string>, priority: seq<string>)
    ensures IsSubsequence(Others(headers, priority), headers)
    decreases |headers|
  {
    if headers != [] {
      OthersIsSubsequence(headers[1..], priority);
      var rest := Others(headers[1..], priority);
      if headers[0] !in priority {
        assert Others(headers, priority) == [headers[0]] + rest;
        assert ([headers[0]] + rest)[1..] == rest;
      } else {
        assert Others(headers, priority) == rest;
      }
    }
  }

  /** Every header goes either to the kept part or to the others. */
  lemma {:induction false} SplitHeaders(headers: seq<string>, priority: seq<string>)
    ensures multiset(headers) == multiset(Kept(headers, priority)) + multiset(Others(headers, priority))
    decreases |headers|
  {
    if headers != [] {
      SplitHeaders(headers[1..], priority);
      assert headers == [headers[0]] + headers[1..];
    }
  }

  /** In a list without repeats each element occurs once. */
  lemma {:induction false} DistinctOnce(s: seq<string>, x: string)
    requires Distinct(s)
    ensures multiset(s)[x] == if x in s then 1 else 0
    decreases |s|
  {
    if s != [] {
      DistinctOnce(s[1..], x);
      assert s == [s[0]] + s[1..];
      assert s[0] !in s[1..];
    }
  }

  /** The column order of the report: the priority names, then the other
      headers in their own order. */
  function ReorderedHeaders(headers: seq<string>, priority: seq<string>): (names: seq<string>)
    ensures |priority| <= |names| && names[..|priority|] == priority
    ensures forall x :: x in names[|priority|..] <==> x in headers && x !in priority
    ensures IsSubsequence(names[|priority|..], headers)
  {
    OthersIsSubsequence(headers, priority);
    var names := priority + Others(headers, priority);
    assert names[|priority|..] == Others(headers, priority);
    names
  }

  /** `df[priority + others]`: the named columns in that order, each row's
      cells following their column. */
  function Reorder(t: Table, priority: seq<string>): (r: Table)
    requires t.WellFormed() && Distinct(t.headers)
    requires forall i :: 0 <= i < |priority| ==> priority[i] in t.headers
    ensures r.WellFormed() && |r.rows| == |t.rows|
    ensures r.headers == ReorderedHeaders(t.headers, priority)
    ensures forall k, j, c ::
      (0 <= k < |r.rows| && 0 <= j < |r.headers| && 0 <= c < |t.headers| && t.headers[c] == r.headers[j])
      ==> r.rows[k][j] == t.rows[k][c]
  {
    var names := ReorderedHeaders(t.headers, priority);
    assert forall j :: 0 <= j < |names| ==> names[j] in t.headers by {
      forall j | 0 <= j < |names| ensures names[j] in t.headers {
        if j >= |priority| {
          assert names[j] in names[|priority|..];
        }
      }
    }
    Table(names, seq(|t.rows|, k requires 0 <= k < |t.rows| =>
      seq(|names|, j requires 0 <= j < |names| => t.rows[k][IndexOf(t.headers, names[j])])))
  }

  /** The kept headers are the priority names, each once. */
  lemma KeptIsPriority(headers: seq<string>, priority: seq<string>)
    requires Distinct(headers) && Distinct(priority)
    requires forall i :: 0 <= i < |priority| ==> priority[i] in headers
    ensures multiset(Kept(headers, priority)) == multiset(priority)
  {
    var kept := Kept(headers, priority);
    forall x ensures multiset(kept)[x] == multiset(priority)[x] {
      DistinctOnce(kept, x);
      DistinctOnce(priority, x);
    }
  }

  /** With no name asked for twice, the new order is a permutation of the
      headers: nothing lost, nothing repeated. */
  lemma ReorderIsPermutation(headers: seq<string>, priority: seq<string>)
    requires Distinct(headers) && Distinct(priority)
    requires forall i :: 0 <= i < |priority| ==> priority[i] in headers
    ensures multiset(ReorderedHeaders(headers, priority)) == multiset(headers)
    ensures Distinct(ReorderedHeaders(headers, priority))
    ensures |ReorderedHeaders(headers, priority)| == |headers|
  {
    SplitHeaders(headers, priority);
    KeptIsPriority(headers, priority);
    var names := ReorderedHeaders(headers, priority);
    var others := Others(headers, priority);
    assert names == priority + others;
    assert multiset(names) == multiset(headers);
    assert |multiset(names)| == |names|;
    DistinctConcat(priority, others);
  }

  /** Two lists without repeats and without a common element concatenate
      into a list without repeats. */
  lemma DistinctConcat(a: seq<string>, b: seq<string>)
    requires Distinct(a) && Distinct(b)
    requires forall x :: x in b ==> x !in a
    ensures Distinct(a + b)
  {
    var c := a + b;
    forall i, j | 0 <= i < j < |c| ensures c[i] != c[j] {
      if i < |a| && j >= |a| {
        assert c[j] == b[j - |a|];
        assert c[j] in b;
      }
    }
  }

  /** How the sales step ends: the warning asking for the seller base, the
      list of expected columns that were not found, or the report. */
  datatype Outcome =
    | NoSellerBase
    | ColumnsNotFound(names: seq<string>)
    | Consolidated(report: Table)

  /** The label of every sales row, from its client cell. */
  function Labels(sales: Table, d: Dict, sim: Similarity): (tags: seq<string>)
    requires sales.WellFormed() && ResolveRoles(sales.headers).Complete()
    ensures |tags| == |sales.rows|
  {
    RowLabels(sales.rows, ColumnOf(sales.headers, Client), d, sim)
  }

  /** Row `k` is labelled from its own cell in the client column. */
  lemma LabelOfRow(sales: Table, d: Dict, sim: Similarity, k: nat)
    requires sales.WellFormed() && ResolveRoles(sales.headers).Complete() && k < |sales.rows|
    ensures Labels(sales, d, sim)[k] == Attribute(sales.rows[k][ColumnOf(sales.headers, Client)], d, sim)
  {
  }

  /** The report built from the labels of all rows has the expected layout. */
  lemma ConsolidateLayout(d: Dict, sales: Table, sim: Similarity)
    requires sales.WellFormed() && Distinct(sales.headers) && ResolveRoles(sales.headers).Complete()
    ensures Distinct(WithSeller(sales, Labels(sales, d, sim)).headers)
    ensures forall i :: 0 <= i < 4 ==> PriorityNames(sales.headers)[i] in WithSeller(sales, Labels(sales, d, sim)).headers
    ensures IsLayout(Reorder(WithSeller(sales, Labels(sales, d, sim)), PriorityNames(sales.headers)),
      sales, PriorityNames(sales.headers), Labels(sales, d, sim))
  {
    PriorityNamesDistinct(sales.headers);
    WithSellerHeaders(sales, Labels(sales, d, sim));
    LayoutOfReport(sales, Labels(sales, d, sim), PriorityNames(sales.headers));
  }

  /** The sales step for a seller map `d` and a sales sheet. */
  method Process(d: Dict, sales: Table, sim: Similarity) returns (out: Outcome)
    requires sales.WellFormed() && Distinct(sales.headers)
    ensures out.NoSellerBase? <==> d.entries == map[]
    ensures out.ColumnsNotFound? <==> d.entries != map[] && !ResolveRoles(sales.headers).Complete()
    ensures out.ColumnsNotFound? ==> out.names == MissingColumns(ResolveRoles(sales.headers)) && out.names != []
    ensures out.Consolidated? ==> ResolveRoles(sales.headers).Complete()
    ensures out.Consolidated? ==>
      IsLayout(out.report, sales, PriorityNames(sales.headers), Labels(sales, d, sim))
  {
    if d.entries == map[] {
      return NoSellerBase;
    }
    var roles := ResolveRoles(sales.headers);
    var missing := MissingColumns(roles);
    if missing != [] {
      return ColumnsNotFound(missing);
    }
    var report := Consolidate(d, sales, sim);
    out := Consolidated(report);
  }

  /** Lines that run once all three columns are found: label every row, add
      the "Vendedor" column, put the four named columns first. */
  method Consolidate(d: Dict, sales: Table, sim: Similarity) returns (report: Table)
    requires sales.WellFormed() && Distinct(sales.headers) && ResolveRoles(sales.headers).Complete()
    ensures IsLayout(report, sales, PriorityNames(sales.headers), Labels(sales, d, sim))
  {
    var tags := AttributeRows(sales.rows, ColumnOf(sales.headers, Client), d, sim);
    assert tags == Labels(sales, d, sim);
    ConsolidateLayout(d, sales, sim);
    report := Reorder(WithSeller(sales, tags), PriorityNames(sales.headers));
  }

  /** The names the report puts first, for a sheet where all three roles
      are resolved. */
  function PriorityNames(headers: seq<string>): (names: seq<string>)
    requires ResolveRoles(headers).Complete()
    ensures |names| == 4 && names[3] == SELLER
    ensures forall i :: 0 <= i < 3 ==> names[i] in headers
    ensures RoleOf(names[0]) == Some(Date) && RoleOf(names[1]) == Some(Client) && RoleOf(names[2]) == Some(Amount)
  {
    [headers[ColumnOf(headers, Date)], headers[ColumnOf(headers, Client)], headers[ColumnOf(headers, Amount)], SELLER]
  }

  /** The three role columns are different columns, and none of them is
      called "Vendedor", so no name is asked for twice. */
  lemma PriorityNamesDistinct(headers: seq<string>)
    requires Distinct(headers) && ResolveRoles(headers).Complete()
    ensures Distinct(PriorityNames(headers))
  {
    ColumnsDistinct(headers, Date, Client);
    ColumnsDistinct(headers, Date, Amount);
    ColumnsDistinct(headers, Client, Amount);
    ColumnIsNotSeller(headers, Date);
    ColumnIsNotSeller(headers, Client);
    ColumnIsNotSeller(headers, Amount);
    FourDistinct(headers, ColumnOf(headers, Date), ColumnOf(headers, Client), ColumnOf(headers, Amount));
  }

  lemma FourDistinct(h: seq<string>, i: nat, j: nat, k: nat)
    requires Distinct(h) && i < |h| && j < |h| && k < |h| && i != j && i != k && j != k
    requires h[i] != SELLER && h[j] != SELLER && h[k] != SELLER
    ensures Distinct([h[i], h[j], h[k], SELLER])
  {
  }

  /** The layout of the finished report: its headers, then its cells. */
  ghost predicate IsLayout(report: Table, sales: Table, priority: seq<string>, tags: seq<string>)
    requires sales.WellFormed() && |tags| == |sales.rows|
  {
    HeadersLaidOut(report.headers, sales.headers, priority) && CellsLaidOut(report, sales, tags)
  }

  /** The priority names first, every other header after them in its
      original relative order, no header lost or repeated, "Vendedor" added
      unless it was there. */
  ghost predicate HeadersLaidOut(names: seq<string>, headers: seq<string>, priority: seq<string>) {
    && |priority| <= |names|
    && names[..|priority|] == priority
    && IsSubsequence(names[|priority|..], headers)
    && Distinct(names)
    && multiset(names) == multiset(headers) + (if SELLER in headers then multiset{} else multiset{SELLER})
  }

  /** One report row per sales row, the labels under "Vendedor" and every
      other cell under its own header. */
  ghost predicate CellsLaidOut(report: Table, sales: Table, tags: seq<string>)
    requires sales.WellFormed() && |tags| == |sales.rows|
  {
    var h := sales.headers;
    && report.WellFormed()
    && |report.rows| == |sales.rows|
    && (forall k, j :: 0 <= k < |report.rows| && 0 <= j < |report.headers| && report.headers[j] == SELLER
         ==> report.rows[k][j] == Text(tags[k]))
    && (forall k, j, c ::
         (0 <= k < |report.rows| && 0 <= j < |report.headers| && 0 <= c < |h| && h[c] == report.headers[j] && h[c] != SELLER)
         ==> report.rows[k][j] == sales.rows[k][c])
  }

  /** Adding the labels and reordering gives the finished layout. */
  lemma LayoutOfReport(sales: Table, tags: seq<string>, priority: seq<string>)
    requires sales.WellFormed() && Distinct(sales.headers) && |tags| == |sales.rows|
    requires Distinct(priority) && |priority| == 4 && priority[3] == SELLER
    requires forall i :: 0 <= i < 3 ==> priority[i] in sales.headers
    ensures forall i :: 0 <= i < |priority| ==> priority[i] in WithSeller(sales, tags).headers
    ensures IsLayout(Reorder(WithSeller(sales, tags), priority), sales, priority, tags)
  {
    var h := sales.headers;
    var ws := WithSeller(sales, tags);
    assert ws.headers[..|h|] == h;
    forall i | 0 <= i < 4 ensures priority[i] in ws.headers {
      if i < 3 {
        assert priority[i] in ws.headers[..|h|];
      }
    }
    HeadersOfReport(sales, tags, priority);
    CellsOfReport(sales, tags, priority);
  }

  lemma HeadersOfReport(sales: Table, tags: seq<string>, priority: seq<string>)
    requires sales.WellFormed() && Distinct(sales.headers) && |tags| == |sales.rows|
    requires Distinct(priority) && SELLER in priority
    requires forall i :: 0 <= i < |priority| ==> priority[i] in WithSeller(sales, tags).headers
    ensures HeadersLaidOut(Reorder(WithSeller(sales, tags), priority).headers, sales.headers, priority)
  {
    var ws := WithSeller(sales, tags);
    WithSellerHeaders(sales, tags);
    ReorderIsPermutation(ws.headers, priority);
    OthersOfReport(sales.headers, ws.headers, priority);
    OthersIsSubsequence(sales.headers, priority);
  }

  /** The added "Vendedor" column is a priority name, so the other headers of
      the report are the other headers of the sales sheet. */
  lemma OthersOfReport(headers: seq<string>, names: seq<string>, priority: seq<string>)
    requires SELLER in priority
    requires names == headers || names == headers + [SELLER]
    ensures Others(names, priority) == Others(headers, priority)
  {
    if names != headers {
      OthersAppend(headers, [SELLER], priority);
      assert Others([SELLER], priority) == [] by {
        assert [SELLER][1..] == [];
      }
    }
  }

  lemma CellsOfReport(sales: Table, tags: seq<string>, priority: seq<string>)
    requires sales.WellFormed() && Distinct(sales.headers) && |tags| == |sales.rows|
    requires forall i :: 0 <= i < |priority| ==> priority[i] in WithSeller(sales, tags).headers
    ensures CellsLaidOut(Reorder(WithSeller(sales, tags), priority), sales, tags)
  {
    var h := sales.headers;
    var ws := WithSeller(sales, tags);
    WithSellerHeaders(sales, tags);
    var report := Reorder(ws, priority);
    forall k, j | 0 <= k < |report.rows| && 0 <= j < |report.headers| && report.headers[j] == SELLER
      ensures report.rows[k][j] == Text(tags[k])
    {
      var c := IndexOf(ws.headers, SELLER);
    }
    forall k, j, c | 0 <= k < |report.rows| && 0 <= j < |report.headers| && 0 <= c < |h| && h[c] == report.headers[j] && h[c] != SELLER
      ensures report.rows[k][j] == sales.rows[k][c]
    {
      assert ws.headers[c] == h[c];
    }
  }

  /** Both steps of the script: the seller map from the base sheet, then the
      sales step with it. The sales step stops at the warning exactly when
      no paired client cell of the base holds a client. */
  method Run(base: Table, sales: Table, sim: Similarity) returns (out: Outcome)
    requires base.WellFormed() && sales.WellFormed() && Distinct(sales.headers)
    ensures out.NoSellerBase? <==>
      forall p, r :: 0 < p < |base.headers| && IsPairAt(base.headers, p) && 0 <= r < |base.rows|
        ==> !IsKept(ClientKey(base.rows[r][p]))
    ensures out.ColumnsNotFound? <==> !out.NoSellerBase? && !ResolveRoles(sales.headers).Complete()
    ensures out.ColumnsNotFound? ==> out.names == MissingColumns(ResolveRoles(sales.headers)) && out.names != []
    ensures out.Consolidated? ==> ResolveRoles(sales.headers).Complete()
    ensures out.Consolidated? ==>
      IsLayout(out.report, sales, PriorityNames(sales.headers), Labels(sales, BuildSellerMap(base).clients, sim))
  {
    var sellers := BuildSellerMap(base);
    SellerMapEmpty(base);
    out := Process(sellers.clients, sales, sim);
  }
}

=== FILE: roles.dfy ===
/** Step 2 of the script, first half: finding the date, client and amount
    columns of the sales sheet by their headers, and listing the ones that
    could not be found. */
module Roles {
  import opened Options
  import opened Text

  /** The names the script expects, used both for exact matches and in the
      list of missing columns. */
  const DATE_LABEL: string := "Data Aprovação"
  const CLIENTS_LABEL: string := "Clientes"
  const CLIENT_LABEL: string := "Cliente"
  const AMOUNT_LABEL: string := "Valor Total"

  /** The column the report adds. */
  const SELLER: string := "Vendedor"

  datatype Role = Date | Client | Amount

  /** Header tests, on the stripped header and its lower-cased form. */
  predicate MatchesDate(header: string) {
    var clean := Trim(header);
    var lower := Lower(clean);
    clean == DATE_LABEL || (Contains(lower, "data") && Contains(lower, "aprov"))
  }

  predicate MatchesClient(header: string) {
    var clean := Trim(header);
    var lower := Lower(clean);
    clean == CLIENTS_LABEL || clean == CLIENT_LABEL || Contains(lower, "cliente")
  }

  predicate MatchesAmount(header: string) {
    var clean := Trim(header);
    var lower := Lower(clean);
    clean == AMOUNT_LABEL || (Contains(lower, "valor") && Contains(lower, "total"))
  }

  /** The `if / elif / elif` chain: a header takes the first role whose test
      it passes, in the order date, client, amount, and at most one role. */
  function RoleOf(header: string): (r: Option<Role>)
    ensures MatchesDate(header) ==> r == Some(Date)
    ensures r == Some(Client) <==> !MatchesDate(header) && MatchesClient(header)
    ensures r == Some(Amount) <==> !MatchesDate(header) && !MatchesClient(header) && MatchesAmount(header)
    ensures r.None? <==> !MatchesDate(header) && !MatchesClient(header) && !MatchesAmount(header)
  {
    if MatchesDate(header) then Some(Date)
    else if MatchesClient(header) then Some(Client)
    else if MatchesAmount(header) then Some(Amount)
    else None
  }

  /** The column chosen for each role, if any. */
  datatype Roles = Roles(date: Option<nat>, client: Option<nat>, amount: Option<nat>) {
    function Get(role: Role): Option<nat> {
      match role
      case Date => date
      case Client => client
      case Amount => amount
    }

    /** Assigning column `i` to `role` leaves the other two roles alone. */
    function Set(role: Role, i: nat): (r: Roles)
      ensures r.Get(role) == Some(i)
      ensures forall other :: other != role ==> r.Get(other) == Get(other)
    {
      match role
      case Date => this.(date := Some(i))
      case Client => this.(client := Some(i))
      case Amount => this.(amount := Some(i))
    }

    predicate Complete() {
      date.Some? && client.Some? && amount.Some?
    }
  }

  const NoRoles: Roles := Roles(None, None, None)

  /** The role of every column, left to right. */
  function RoleTags(headers: seq<string>): (tags: seq<Option<Role>>)
    ensures |tags| == |headers|
    ensures forall i :: 0 <= i < |headers| ==> tags[i] == RoleOf(headers[i])
  {
    seq(|headers|, i requires 0 <= i < |headers| => RoleOf(headers[i]))
  }

  /** Column `i` is the last of the first `n` tagged with `role`. */
  predicate LastTagged(tags: seq<Option<Role>>, n: nat, role: Role, i: nat)
    requires n <= |tags|
  {
    i < n && tags[i] == Some(role) && forall j :: i < j < n ==> tags[j] != Some(role)
  }

  /** None of the first `n` columns is tagged with `role`. */
  predicate NoneTagged(tags: seq<Option<Role>>, n: nat, role: Role)
    requires n <= |tags|
  {
    forall j :: 0 <= j < n ==> tags[j] != Some(role)
  }

  /** The loop over the columns, after the first `n`: each column overwrites
      the role it takes, so a role ends up with the last column that takes it. */
  function ScanRoles(tags: seq<Option<Role>>, n: nat): (r: Roles)
    requires n <= |tags|
    ensures forall role, i :: r.Get(role) == Some(i) ==> LastTagged(tags, n, role, i)
    ensures forall role :: r.Get(role).None? <==> NoneTagged(tags, n, role)
    decreases n
  {
    if n == 0 then NoRoles
    else
      var prev := ScanRoles(tags, n - 1);
      match tags[n - 1]
      case None => prev
      case Some(role) => prev.Set(role, n - 1)
  }

  /** The columns of the sales sheet that take each role: the last column
      whose header takes it, or none when no header does. */
  function ResolveRoles(headers: seq<string>): (r: Roles)
    ensures forall role, i :: r.Get(role) == Some(i) ==> LastTagged(RoleTags(headers), |headers|, role, i)
    ensures forall role :: r.Get(role).None? <==> NoneTagged(RoleTags(headers), |headers|, role)
  {
    ScanRoles(RoleTags(headers), |headers|)
  }

  /** The column resolved for `role`, on a sheet where every role is resolved. */
  function ColumnOf(headers: seq<string>, role: Role): (i: nat)
    requires ResolveRoles(headers).Complete()
    ensures LastTagged(RoleTags(headers), |headers|, role, i)
  {
    var r := ResolveRoles(headers);
    assert r.Get(role).Some?;
    r.Get(role).value
  }

  /** A resolved column is never the report's "Vendedor" column. */
  lemma ColumnIsNotSeller(headers: seq<string>, role: Role)
    requires ResolveRoles(headers).Complete()
    ensures headers[ColumnOf(headers, role)] != SELLER
  {
    var i := ColumnOf(headers, role);
    assert RoleOf(headers[i]) == Some(role);
    SellerHasNoRole();
  }

  /** On a fully resolved sheet the three roles sit in three different columns. */
  lemma ColumnsDistinct(headers: seq<string>, a: Role, b: Role)
    requires ResolveRoles(headers).Complete() && a != b
    ensures ColumnOf(headers, a) != ColumnOf(headers, b)
  {
    var tags := RoleTags(headers);
    assert tags[ColumnOf(headers, a)] == Some(a);
    assert tags[ColumnOf(headers, b)] == Some(b);
  }

  /** No column serves two roles. */
  lemma RolesDistinct(headers: seq<string>, a: Role, b: Role)
    requires a != b && ResolveRoles(headers).Get(a).Some?
    ensures ResolveRoles(headers).Get(a) != ResolveRoles(headers).Get(b)
  {
    ScanRolesDistinct(RoleTags(headers), |headers|, a, b);
  }

  lemma ScanRolesDistinct(tags: seq<Option<Role>>, n: nat, a: Role, b: Role)
    requires n <= |tags| && a != b && ScanRoles(tags, n).Get(a).Some?
    ensures ScanRoles(tags, n).Get(a) != ScanRoles(tags, n).Get(b)
  {
  }

  /** `missing_cols`: the expected names of the roles left unresolved, in the
      order date, clients, amount. */
  function MissingColumns(r: Roles): (m: seq<string>)
    ensures DATE_LABEL in m <==> r.date.None?
    ensures CLIENTS_LABEL in m <==> r.client.None?
    ensures AMOUNT_LABEL in m <==> r.amount.None?
    ensures forall i :: 0 <= i < |m| ==> m[i] in [DATE_LABEL, CLIENTS_LABEL, AMOUNT_LABEL]
    ensures forall i, j :: 0 <= i < j < |m| ==> LabelRank(m[i]) < LabelRank(m[j])
    ensures m == [] <==> r.Complete()
  {
    (if r.date.None? then [DATE_LABEL] else [])
    + (if r.client.None? then [CLIENTS_LABEL] else [])
    + (if r.amount.None? then [AMOUNT_LABEL] else [])
  }

  /** Position of an expected name in the fixed order of the message. */
  function LabelRank(name: string): nat {
    if name == DATE_LABEL then 0 else if name == CLIENTS_LABEL then 1 else 2
  }

  /** The exact names the script asks for each land on their own role, and
      the column the report adds takes none. */
  lemma ExpectedNamesResolve()
    ensures RoleOf(DATE_LABEL) == Some(Date)
    ensures RoleOf(CLIENTS_LABEL) == Some(Client)
    ensures RoleOf(CLIENT_LABEL) == Some(Client)
    ensures RoleOf(AMOUNT_LABEL) == Some(Amount)
    ensures RoleOf(SELLER) == None
  {
    TrimOfTrimmed(DATE_LABEL);
    ClientNamesResolve();
    AmountNameResolves();
    SellerHasNoRole();
  }

  lemma ClientNamesResolve()
    ensures RoleOf(CLIENTS_LABEL) == Some(Client)
    ensures RoleOf(CLIENT_LABEL) == Some(Client)
  {
    TrimOfTrimmed(CLIENTS_LABEL);
    TrimOfTrimmed(CLIENT_LABEL);
    assert Lower(CLIENTS_LABEL) == "clientes";
    assert Lower(CLIENT_LABEL) == "cliente";
    ContainsNeedsChar("clientes", "data", 0);
    ContainsNeedsChar("cliente", "data", 0);
  }

  lemma AmountNameResolves()
    ensures RoleOf(AMOUNT_LABEL) == Some(Amount)
  {
    TrimOfTrimmed(AMOUNT_LABEL);
    assert Lower(AMOUNT_LABEL) == "valor total";
    ContainsNeedsChar("valor total", "data", 0);
    ContainsNeedsChar("valor total", "cliente", 0);
  }

  /** So adding the report column can never change the roles. */
  lemma SellerHasNoRole()
    ensures RoleOf(SELLER) == None
  {
    TrimOfTrimmed(SELLER);
    assert Lower(SELLER) == "vendedor";
    ContainsNeedsChar("vendedor", "data", 1);
    ContainsNeedsChar("vendedor", "cliente", 0);
    ContainsNeedsChar("vendedor", "valor", 1);
  }
}

=== FILE: text.dfy ===
/** The Python `str` operations the reconciliation relies on: `strip()`,
    `lower()`, `upper()` and substring membership (`w in s`).
    Case mapping covers ASCII and the Latin-1 Supplement; see README. */
module Text {

  /** `str.isspace()`: the characters Python's `strip()` removes. */
  predicate IsSpace(c: char) {
    || ('\t' <= c <= '\r')
    || ('\U{1C}' <= c <= ' ')
    || c == '\U{85}' || c == '\U{A0}' || c == '\U{1680}'
    || ('\U{2000}' <= c <= '\U{200A}')
    || c == '\U{2028}' || c == '\U{2029}' || c == '\U{202F}'
    || c == '\U{205F}' || c == '\U{3000}'
  }

  predicate AllSpace(s: string) {
    forall i :: 0 <= i < |s| ==> IsSpace(s[i])
  }

  /** Neither the first nor the last character is whitespace. */
  predicate IsTrimmed(s: string) {
    s == [] || (!IsSpace(s[0]) && !IsSpace(s[|s| - 1]))
  }

  /** `r` is `s` with a run of whitespace removed from each end. */
  ghost predicate IsTrimOf(r: string, s: string) {
    exists i, j :: 0 <= i <= j <= |s| && r == s[i..j] && AllSpace(s[..i]) && AllSpace(s[j..])
  }

  /** First index at or after `i` that is not whitespace (or `|s|`). */
  function SkipLeading(s: string, i: nat): (k: nat)
    requires i <= |s|
    ensures i <= k <= |s|
    ensures forall m :: i <= m < k ==> IsSpace(s[m])
    ensures k < |s| ==> !IsSpace(s[k])
    decreases |s| - i
  {
    if i < |s| && IsSpace(s[i]) then SkipLeading(s, i + 1) else i
  }

  /** End of `s[i..j]` once its trailing whitespace is dropped. */
  function SkipTrailing(s: string, i: nat, j: nat): (k: nat)
    requires i <= j <= |s|
    ensures i <= k <= j
    ensures forall m :: k <= m < j ==> IsSpace(s[m])
    ensures i < k ==> !IsSpace(s[k - 1])
    decreases j
  {
    if i < j && IsSpace(s[j - 1]) then SkipTrailing(s, i, j - 1) else j
  }

  /** `str.strip()` with no argument. */
  function Trim(s: string): (r: string)
    ensures IsTrimmed(r)
  {
    var i := SkipLeading(s, 0);
    var j := SkipTrailing(s, i, |s|);
    s[i..j]
  }

  /** `strip()` removes whitespace only, and only at the two ends. */
  lemma TrimRemovesOuterSpace(s: string)
    ensures IsTrimOf(Trim(s), s)
    ensures forall c :: c in Trim(s) ==> c in s
  {
    var i := SkipLeading(s, 0);
    var j := SkipTrailing(s, i, |s|);
    assert AllSpace(s[..i]) && AllSpace(s[j..]);
  }

  /** Stripping a string that has no surrounding whitespace changes nothing,
      so `strip()` is idempotent. */
  lemma TrimOfTrimmed(s: string)
    requires IsTrimmed(s)
    ensures Trim(s) == s
  {
    if s != [] {
      assert !IsSpace(s[0]);
      var i := SkipLeading(s, 0);
      assert i == 0;
      assert !IsSpace(s[|s| - 1]);
    }
  }

  /** `str.lower()` on one character; the two capitals `upper()` produces
      outside Latin-1 map back to Latin-1 letters. */
  function LowerChar(c: char): char {
    if 'A' <= c <= 'Z' || ('\U{C0}' <= c <= '\U{DE}' && c != '\U{D7}') then
      (c as int + 32) as char
    else if c == '\U{178}' then
      '\U{FF}'
    else if c == '\U{39C}' then
      '\U{3BC}'
    else
      c
  }

  /** A character that `lower()` leaves as it is. */
  predicate IsLower(c: char) {
    LowerChar(c) == c
  }

  predicate AllLower(s: string) {
    forall i :: 0 <= i < |s| ==> IsLower(s[i])
  }

  /** `str.lower()`: one character for one character. The result is lower
      case, and a lower-case string is left as it is, so `lower()` is
      idempotent. */
  function Lower(s: string): (r: string)
    ensures |r| == |s|
    ensures AllLower(r)
    ensures AllLower(s) ==> r == s
    ensures forall i :: 0 <= i < |r| ==> !('A' <= r[i] <= 'Z')
  {
    seq(|s|, i requires 0 <= i < |s| => LowerChar(s[i]))
  }

  /** `lower()` works character by character, so it distributes over concatenation. */
  lemma LowerAppend(a: string, b: string)
    ensures Lower(a + b) == Lower(a) + Lower(b)
  {
    assert forall i :: 0 <= i < |a| ==> (a + b)[i] == a[i];
    assert forall i :: |a| <= i < |a + b| ==> (a + b)[i] == b[i - |a|];
  }

  /** `str.upper()` on one character; the sharp s becomes two letters. */
  function UpperChar(c: char): string {
    if 'a' <= c <= 'z' || ('\U{E0}' <= c <= '\U{FE}' && c != '\U{F7}') then
      [(c as int - 32) as char]
    else if c == '\U{B5}' then
      ['\U{39C}']
    else if c == '\U{DF}' then
      "SS"
    else if c == '\U{FF}' then
      ['\U{178}']
    else
      [c]
  }

  /** A character that `upper()` leaves as it is. */
  predicate IsUpper(c: char) {
    UpperChar(c) == [c]
  }

  predicate AllUpper(s: string) {
    forall i :: 0 <= i < |s| ==> IsUpper(s[i])
  }

  /** What `upper()` produces is itself upper case, and whitespace is left alone. */
  lemma UpperCharFacts(c: char)
    ensures UpperChar(c) != []
    ensures AllUpper(UpperChar(c))
    ensures IsSpace(c) ==> UpperChar(c) == [c]
    ensures !IsSpace(c) ==> forall i :: 0 <= i < |UpperChar(c)| ==> !IsSpace(UpperChar(c)[i])
  {
  }

  /** `str.upper()`. */
  function Upper(s: string): (r: string)
    ensures AllUpper(r)
    ensures AllUpper(s) ==> r == s
    ensures s == [] <==> r == []
    decreases |s|
  {
    if s == [] then []
    else
      UpperCharFacts(s[0]);
      var rest := Upper(s[1..]);
      assert AllUpper(s) ==> AllUpper(s[1..]);
      UpperChar(s[0]) + rest
  }

  /** `upper()` keeps a string free of surrounding whitespace: the first and
      the last character map to non-blank letters. */
  lemma UpperKeepsTrimmed(s: string)
    requires IsTrimmed(s)
    ensures IsTrimmed(Upper(s))
  {
    if s != [] {
      var n := |s| - 1;
      UpperCharFacts(s[0]);
      UpperCharFacts(s[n]);
      assert s == s[..n] + [s[n]];
      UpperAppend(s[..n], [s[n]]);
      assert Upper([s[n]]) == UpperChar(s[n]) by {
        assert [s[n]][1..] == [];
      }
    }
  }

  /** `upper()` works character by character, so it distributes over concatenation. */
  lemma {:induction false} UpperAppend(a: string, b: string)
    ensures Upper(a + b) == Upper(a) + Upper(b)
    decreases |a|
  {
    if a == [] {
      assert a + b == b;
    } else {
      assert (a + b)[0] == a[0];
      assert (a + b)[1..] == a[1..] + b;
      UpperAppend(a[1..], b);
      calc {
        Upper(a + b);
        UpperChar(a[0]) + Upper(a[1..] + b);
        UpperChar(a[0]) + (Upper(a[1..]) + Upper(b));
        (UpperChar(a[0]) + Upper(a[1..])) + Upper(b);
      }
    }
  }

  /** Python's `w in s` for two strings: `w` occurs as a contiguous block of `s`. */
  predicate Contains(s: string, w: string): (b: bool)
    ensures b ==> |w| <= |s|
    ensures b ==> forall c :: c in w ==> c in s
  {
    exists i :: 0 <= i <= |s| - |w| && OccursAt(s, w, i)
  }

  /** `w` occurs in `s` starting at index `i`. */
  predicate OccursAt(s: string, w: string, i: nat)
    requires i + |w| <= |s|
  {
    s[i..i + |w|] == w
  }

  /** A block that occurs in `s` still occurs once text is added around `s`. */
  lemma ContainsExtend(a: string, s: string, b: string, w: string)
    requires Contains(s, w)
    ensures Contains(a + s + b, w)
  {
    var i :| 0 <= i <= |s| - |w| && OccursAt(s, w, i);
    var t := a + s + b;
    assert t[|a| + i..|a| + i + |w|] == s[i..i + |w|];
    assert OccursAt(t, w, |a| + i);
  }

  /** A string occurs in itself, and the empty string occurs everywhere. */
  lemma ContainsSelf(s: string)
    ensures Contains(s, s)
    ensures Contains(s, "")
  {
    assert OccursAt(s, s, 0);
    assert OccursAt(s, "", 0);
  }

  /** A block that holds a character `s` lacks does not occur in `s`. */
  lemma ContainsNeedsChar(s: string, w: string, k: nat)
    requires k < |w| && w[k] !in s
    ensures !Contains(s, w)
  {
  }
}

=== FILE: unicode.dfy ===
/** The two pieces of the Unicode database that accent stripping consults:
    canonical decomposition (NFD) and the general category "Mn"
    (non-spacing mark). The decomposition table covers the precomposed
    letters of the Latin-1 Supplement and U+0178; see README. */
module Unicode {
  import opened Options

  const Grave: char := '\U{300}'
  const Acute: char := '\U{301}'
  const Circumflex: char := '\U{302}'
  const Tilde: char := '\U{303}'
  const Diaeresis: char := '\U{308}'
  const RingAbove: char := '\U{30A}'
  const Cedilla: char := '\U{327}'

  /** Category "Mn" as far as the combining diacritical marks block goes. */
  predicate IsNonspacingMark(c: char) {
    '\U{300}' <= c <= '\U{36F}'
  }

  /** Canonical decomposition of the upper-case precomposed Latin-1 letters
      (U+00C0..U+00DD) into an ASCII base letter and one combining mark. */
  function CapitalDecomposition(c: char): (d: Option<(char, char)>)
    ensures d.Some? ==> 'A' <= d.value.0 <= 'Z' && IsNonspacingMark(d.value.1)
    ensures d.Some? <==> '\U{C0}' <= c <= '\U{DD}' && c !in "\U{C6}\U{D0}\U{D7}\U{D8}"
  {
    if '\U{C0}' <= c <= '\U{C5}' then
      Some(('A', [Grave, Acute, Circumflex, Tilde, Diaeresis, RingAbove][c as int - 0xC0]))
    else if c == '\U{C7}' then
      Some(('C', Cedilla))
    else if '\U{C8}' <= c <= '\U{CB}' then
      Some(('E', [Grave, Acute, Circumflex, Diaeresis][c as int - 0xC8]))
    else if '\U{CC}' <= c <= '\U{CF}' then
      Some(('I', [Grave, Acute, Circumflex, Diaeresis][c as int - 0xCC]))
    else if c == '\U{D1}' then
      Some(('N', Tilde))
    else if '\U{D2}' <= c <= '\U{D6}' then
      Some(('O', [Grave, Acute, Circumflex, Tilde, Diaeresis][c as int - 0xD2]))
    else if '\U{D9}' <= c <= '\U{DC}' then
      Some(('U', [Grave, Acute, Circumflex, Diaeresis][c as int - 0xD9]))
    else if c == '\U{DD}' then
      Some(('Y', Acute))
    else
      None
  }

  /** Canonical decomposition of one character, when it has one. The small
      letters U+00E0..U+00FD sit 0x20 above their capitals. */
  function Decomposition(c: char): (d: Option<(char, char)>)
    ensures d.Some? ==> 'A' <= d.value.0 <= 'Z' || 'a' <= d.value.0 <= 'z'
    ensures d.Some? ==> IsNonspacingMark(d.value.1)
    ensures d.Some? ==> !IsNonspacingMark(c)
  {
    if '\U{E0}' <= c <= '\U{FD}' then
      match CapitalDecomposition((c as int - 0x20) as char)
      case Some((base, mark)) => Some(((base as int + 0x20) as char, mark))
      case None => None
    else if c == '\U{FF}' then
      Some(('y', Diaeresis))
    else if c == '\U{178}' then
      Some(('Y', Diaeresis))
    else
      CapitalDecomposition(c)
  }

  /** `unicodedata.normalize("NFD", s)` for the table above. Canonical
      reordering only permutes runs of marks, which are dropped afterwards. */
  function Nfd(s: string): (r: string)
    ensures forall i :: 0 <= i < |r| ==> Decomposition(r[i]).None?
    ensures (forall i :: 0 <= i < |s| ==> Decomposition(s[i]).None?) ==> r == s
    ensures |s| <= |r|
    decreases |s|
  {
    if s == [] then []
    else
      match Decomposition(s[0])
      case Some((base, mark)) => [base, mark] + Nfd(s[1..])
      case None => [s[0]] + Nfd(s[1..])
  }

  /** Keeps the characters whose category is not "Mn". */
  function DropMarks(s: string): (r: string)
    ensures forall i :: 0 <= i < |r| ==> !IsNonspacingMark(r[i])
    ensures forall c :: c in r ==> c in s
    ensures forall c :: c in s && !IsNonspacingMark(c) ==> c in r
    ensures (forall i :: 0 <= i < |s| ==> !IsNonspacingMark(s[i])) ==> r == s
    decreases |s|
  {
    if s == [] then []
    else if IsNonspacingMark(s[0]) then DropMarks(s[1..])
    else [s[0]] + DropMarks(s[1..])
  }

  /** A character NFD leaves alone and the mark filter keeps. */
  predicate IsPlain(c: char) {
    Decomposition(c).None? && !IsNonspacingMark(c)
  }

  predicate AllPlain(s: string) {
    forall i :: 0 <= i < |s| ==> IsPlain(s[i])
  }

  /** NFD followed by dropping the marks: the accent stripping of the
      normalization helper. */
  function StripAccents(s: string): (r: string)
    ensures AllPlain(r)
    ensures AllPlain(s) ==> r == s
    ensures |r| <= |s|
    decreases |s|
  {
    if s == [] then []
    else
      var rest := StripAccents(s[1..]);
      assert AllPlain(s) ==> AllPlain(s[1..]);
      match Decomposition(s[0])
      case Some((base, mark)) =>
        assert Decomposition(base).None?;
        [base] + rest
      case None =>
        if IsNonspacingMark(s[0]) then rest else [s[0]] + rest
  }

  /** The recursive accent stripping above is exactly NFD followed by the filter. */
  lemma {:induction false} StripAccentsIsNfdThenDrop(s: string)
    ensures StripAccents(s) == DropMarks(Nfd(s))
    decreases |s|
  {
    if s != [] {
      StripAccentsIsNfdThenDrop(s[1..]);
      match Decomposition(s[0])
      case Some((base, mark)) =>
        var n := [base, mark] + Nfd(s[1..]);
        assert n[1..] == [mark] + Nfd(s[1..]);
        assert n[1..][1..] == Nfd(s[1..]);
      case None =>
        var n := [s[0]] + Nfd(s[1..]);
        assert n[1..] == Nfd(s[1..]);
    }
  }

  /** Stripping works character by character. */
  lemma {:induction false} StripAccentsAppend(a: string, b: string)
    ensures StripAccents(a + b) == StripAccents(a) + StripAccents(b)
    decreases |a|
  {
    if a == [] {
      assert a + b == b;
    } else {
      assert (a + b)[0] == a[0];
      assert (a + b)[1..] == a[1..] + b;
      StripAccentsAppend(a[1..], b);
    }
  }
}
